=== FILE: README.md ===
# Case folding table generator, modelled in Dafny

`tool/CaseFolding.py` turns the Unicode data file `CaseFolding.txt` into the
static C tables of `enc/unicode/casefold.h`. It works in four steps, and each
step is one module here:

- **LineParser.** A line is used when it starts with
  `<field>; <C|F|T>; <field>[ <field>[ <field>]];`. A field is four to six
  characters from `[0-9A-Z]` and is read as hexadecimal. Every other line is
  skipped: comments, blank lines, `S` lines and malformed lines.
- **TableBuilder (ingest).** Ingest reads the records in file order.
  - A `C` or `F` record overwrites the origin's entry in the fold table.
  - It also appends the origin to the unfold bucket of its target. There is
    one unfold table per target length: 1, 2 or 3 code points.
  - A `T` (Turkic) record only queues its origin.
- **TableBuilder (migration).** Each queued origin, in queue order, has its
  fold entry moved to the locale fold table. The whole unfold bucket of its
  target moves to the locale unfold table of the same length. Migration
  aborts where the generator raises:
  - the origin has no fold entry (`KeyError`), which also covers an origin
    queued twice;
  - the bucket was already moved by an earlier queued origin with the same
    target (`KeyError`);
  - the target has three code points and there is no locale slot for it
    (`IndexError`).
- **Emitter.** It prints the seven tables, each sorted by key. Every entry
  shows its values and their count. Then come four `#define` size hints.
- **Driver.** It chains the steps. A run either yields every printed table
  or stops with the first error.

Supporting modules:

- `Hex` holds hexadecimal reading (`int(x, 16)`) and the `"%04x"` number
  format.
- `Ordering` holds the sort (`sorted(...)`) and Python's order on integers
  and tuples.
- `Types` holds the records and errors.
- `Wrappers` holds `Option` and `Result`.
- `Scenarios` holds small worked inputs.

A field may hold any letter from `A` to `Z`, because the character class is
`[0-9A-Z]`. The field is then read with `int(field, 16)`. That call accepts hex
digits, and it also accepts them after a leading `0X`, so `0X41` reads as
0x41. Any other letter from `G` to `Z` makes the call raise, and the model
returns the error `InvalidHex`. The origin field is read before the status
letter is tested, so a `T` line with an unreadable origin aborts the run. A
`T` line's target fields are never read.

One might expect each fold entry's origin to stay in the unfold bucket of the
same kind: generic with generic, locale with locale. The code does not keep
that. Migration moves a bucket whole, so a C/F origin that has no
Turkic record can keep its generic fold entry while its bucket moves to the
locale table. `TableBuilder.SharedBucketMovesWhole` exhibits this. The
consistency that does hold is stated over the union of the generic and locale
tables, in `TableBuilder.MigratedConsistent`.

## Model

| member | source | states |
|---|---|---|
| LineParser.Recognise | tool/CaseFolding.py:13-14 | A recognised line's fields satisfy the grammar: a 4-6 character `[0-9A-Z]` origin, a status in C/F/T, and 1 to 3 such target fields. The line starts with exactly those fields, joined by `; ` and single spaces and closed by `;`. |
| LineParser.RecogniseMatchesGrammar | tool/CaseFolding.py:22-24 | The recogniser returns fields `f` if and only if `f` satisfies the grammar and the line starts with the text the pattern matches for `f`. Both directions hold, so every other line is skipped. |
| LineParser.TargetFields | tool/CaseFolding.py:14 | The target part yields 1 to 3 fields, each of 4 to 6 field characters. |
| LineParser.SimpleStatusRejected | tool/CaseFolding.py:13 | A line whose status letter is `S` is never recognised. |
| LineParser.DecodeField | tool/CaseFolding.py:25 | A field is read exactly when `int(field, 16)` accepts it: hex digits, possibly after a leading `0X`. The result is the number those digits denote. Otherwise the read fails with `InvalidHex` naming the field. |
| LineParser.DecodeFieldLetters | tool/CaseFolding.py:25 | A field fails to read exactly when it holds a letter from `G` to `Z` other than the `X` of a leading `0X`. |
| LineParser.DecodeFields | tool/CaseFolding.py:34-36 | The target fields are read in order, each as `int(field, 16)` reads it. The read fails exactly when some field is not accepted, and the error names the first such field. |
| LineParser.DecodeFieldsEach | tool/CaseFolding.py:34-36 | Target fields that each read to a code point read together to those code points, in field order. |
| LineParser.ParseLine | tool/CaseFolding.py:22-36 | A skipped line gives no record. A recognised line fails exactly when `int(field, 16)` rejects its origin, or, for a C/F line, one of its targets. An unreadable origin is the error reported, since the origin is read first; otherwise the error names the first unreadable target. Otherwise a recognised line always gives a record: a `T` line a Turkic record, and a C/F line a mapping with the read targets in field order and the matching status. |
| LineParser.ParseMappingLine | tool/CaseFolding.py:22-42 | A line that starts with the text of well-formed C/F fields, whatever follows the closing `;`, gives the mapping from the origin's value to the targets' values, with status C or F as written. |
| LineParser.ParseTurkicLine | tool/CaseFolding.py:22-31 | A line that starts with the text of well-formed T fields gives the Turkic record of its origin, whatever its targets hold. |
| LineParser.ParseEach | tool/CaseFolding.py:21-36 | The pass over the file succeeds exactly when every line parses, and it yields at most one record per line. |
| LineParser.ParseEachFirstError | tool/CaseFolding.py:21-36 | A run that aborts reports the error of the first failing line; every earlier line parsed. |
| LineParser.ParseEachAppend | tool/CaseFolding.py:21-24 | Parsing two runs of lines back to back concatenates their records, unless one fails; then the first error wins. |
| LineParser.ParseEachRecords | tool/CaseFolding.py:21-36 | When every line yields one record, the pass yields exactly those records, in line order. |
| LineParser.SkippedLineHasNoEffect | tool/CaseFolding.py:22-24 | Removing an unrecognised line from the file does not change the parse result. |
| Hex.SixDigitBound | tool/CaseFolding.py:13-14 | A field of at most six hex digits denotes a number below 16^6, so every parsed code point fits the model's `Codepoint` type. |
| Hex.LiteralBound | tool/CaseFolding.py:13-14 | What `int(field, 16)` returns for a field of at most six characters, with or without a `0X` prefix, is below 16^6. |
| Hex.PrefixedLiteral | tool/CaseFolding.py:25 | `int(s, 16)` reads `0X` or `0x` followed by hex digits as the number the digits alone denote. |
| Hex.Format04xRoundTrip | tool/CaseFolding.py:64-65 | What `"%04x"` prints reads back as the same number. The text is at least four lower-case digits, and exactly four below 0x10000. |
| TableBuilder.AddRecord | tool/CaseFolding.py:28-42 | A T record only appends its origin to the queue. A C/F record sets the origin's fold entry to its target and appends the origin to the target's bucket in the slot for its length. Every other fold entry, bucket and key stays as it was. |
| TableBuilder.IngestFold | tool/CaseFolding.py:37 | After ingest, an origin has a fold entry exactly when some C/F record names it, and the entry is the target of the last such record. |
| TableBuilder.IngestUnfold | tool/CaseFolding.py:40-42 | After ingest, a target has a bucket in the slot for its length exactly when some C/F record maps to it. The bucket lists those records' origins in file order. |
| TableBuilder.IngestSlotsAligned | tool/CaseFolding.py:40-42 | Every key in unfold slot `i` has length `i + 1`. |
| TableBuilder.IngestQueue | tool/CaseFolding.py:28-31 | The queue after ingest is the T records' origins in file order. |
| TableBuilder.IngestConsistent | tool/CaseFolding.py:37-42 | After ingest, every fold entry's origin is in the bucket of its target, in the slot for the target's length. |
| TableBuilder.MoveToLocale | tool/CaseFolding.py:47-53 | One migration step fails exactly when the origin has no fold entry, its bucket is gone, or its target has three code points. The error is the first of these in that order, as the generator raises them. On success it moves the origin from the fold table to the locale fold table, and moves the target's bucket to the locale unfold table. Other entries keep their values and the three-code-point table is unchanged. |
| TableBuilder.MigrateSucceedsIff | tool/CaseFolding.py:47-51 | Migration completes if and only if: every queued origin has a fold entry and a bucket; its target has at most two code points; and no two queued origins share a target. |
| TableBuilder.MigrateMovesFolds | tool/CaseFolding.py:52-53 | After migration, the fold table has lost exactly the queued origins and the locale fold table has gained them. The two tables stay disjoint, and their union is the fold table before migration. |
| TableBuilder.MigrateMovesBuckets | tool/CaseFolding.py:48-51 | After migration, each slot's generic and locale unfold tables are disjoint, and their union is the slot's table before migration. Buckets move unchanged, and the three-code-point table is untouched. |
| TableBuilder.MigrateLocaleKeys | tool/CaseFolding.py:48-50 | The keys added to locale unfold slot `i` are exactly the targets, of that length, of the queued origins. |
| TableBuilder.MigrateGenericKeys | tool/CaseFolding.py:50-51 | The keys removed from generic unfold slot `i` are exactly the targets, of that length, of the queued origins. |
| TableBuilder.SharedBucketMovesWhole | tool/CaseFolding.py:48-51 | Take `0041` and `0042`, both mapping to `0061`, with `0041` Turkic. After migration, `0042` keeps its generic fold entry, but the bucket `[0041, 0042]` is only in the locale table. |
| TableBuilder.MigrateAfterIngest | tool/CaseFolding.py:44-53 | Ingest followed by migration completes if and only if: every T origin has a C/F record, and the target of its last C/F record has at most two code points; and no two T origins have the same such target. |
| TableBuilder.MigratedFoldTables | tool/CaseFolding.py:37-53 | After a completed build, each origin with a C/F record is in exactly one of the fold and locale fold tables. It is in the locale table exactly when it has a T record, and its entry is the target of its last C/F record. |
| TableBuilder.MigratedUnfoldTables | tool/CaseFolding.py:40-51 | After a completed build, each target with a C/F record has its bucket in exactly one of the generic and locale tables of its slot. The bucket holds the origins of its records in file order. |
| TableBuilder.MigratedConsistent | tool/CaseFolding.py:37-53 | After a completed build, every fold entry, generic or locale, has its origin in its target's bucket. That bucket is in the union of the generic and locale tables of its slot. |
| TableBuilder.MigratedFoldCount | tool/CaseFolding.py:116 | The two fold tables together have one entry per origin with a C/F record. |
| Ordering.SortedKeys | tool/CaseFolding.py:63 | The sorted keys list every key of the table exactly once, in strictly ascending order. |
| Ordering.TargetLessIsStrictTotal | tool/CaseFolding.py:93 | Python's tuple order on target keys is a strict total order: irreflexive, transitive and total. |
| Ordering.AscendingUnique | tool/CaseFolding.py:79 | Two strictly ascending listings of the same keys are equal, so the printed order does not depend on how the table stores its keys. |
| Emitter.TableRows | tool/CaseFolding.py:63-65 | A printed table has one row per key, with keys strictly ascending. Each row carries its key's values and their count. |
| Emitter.PrintsUnique | tool/CaseFolding.py:70-72 | Any two printings of a table are identical: the output is fixed by the table's contents. |
| Emitter.TableSizes | tool/CaseFolding.py:116-123 | Each size hint is the floor of a count times its factor. The counts are: fold entries, generic plus locale, times 1.2; one-code-point unfold keys times 1.2; two-code-point unfold keys times 1.5; three-code-point unfold keys times 1.7. |
| Emitter.Emit | tool/CaseFolding.py:59-123 | The output lists each of the seven tables sorted by key, with counts, followed by the four size hints. |
| Driver.Run | tool/CaseFolding.py:20-113 | A run fails exactly when parsing or migration fails, with the error of the build. Otherwise it prints every table built from the file, sorted and with counts. |
| Driver.BuildSucceedsIff | tool/CaseFolding.py:21-53 | A run completes if and only if every line parses and the Turkic queue can be migrated. A line parses when `int(field, 16)` accepts its origin and, for a C/F line, each of its targets; a `T` line's targets are never read. |
| Driver.FoldSizeCountsOrigins | tool/CaseFolding.py:116-117 | `FOLD_TABLE_SIZE` is the floor of 1.2 times the number of origins with a C/F record. |
| Scenarios.DottedCapitalIParsed | tool/CaseFolding.py:21-36 | The lines `0041; C; 0061; # …`, `0130; F; 0069 0307; # …` and `0130; T; 0069; # …` parse to a C mapping, an F mapping and a Turkic record, in that order. |
| Scenarios.DottedCapitalITables | tool/CaseFolding.py:20-53 | Build from those three lines. `0041` keeps its generic entries, while `0130`'s fold entry and its two-code-point bucket are only in the locale tables. |
| Scenarios.PrefixedOriginRead | tool/CaseFolding.py:25 | The line `0X41; C; 0061;` gives the mapping from 0x41 to 0x61: the `0X` prefix is read, not rejected. |
| Scenarios.OrphanTurkicAborts | tool/CaseFolding.py:48 | A T record whose origin has no C/F record anywhere in the file aborts the run. |
| Scenarios.SimpleLineSkipped | tool/CaseFolding.py:22-24 | The line `0049; S; 0069;` is skipped and leaves the parse of any file unchanged. |

## Left out

- Opening and reading the file (`tool/CaseFolding.py:20-21`) is left out. The model takes the file's lines as a sequence of strings.
- `main` and its command-line handling (`tool/CaseFolding.py:125-132`) are left out.
- The `wget` step in the usage comment is left out.
- Writing to standard output is left out. The printed tables are returned as values: rows of key, count and values, plus the four size hints.
- The C text around the rows (`tool/CaseFolding.py:56-113`) is not modelled: the header comments, array declarations, braces and commas. The number format `"%04x"` is modelled on its own, as `Hex.Format04x`, and is not tied to the rows.
- The regular-expression engine is replaced by a hand-written recogniser of the same language. The fields' delimiters (`;` and space) are not field characters, so backtracking can never shorten a field. A field is therefore exactly the maximal run of field characters, and it must be 4 to 6 long.
- Emitter.TableSizes: uses exact integer floors, `(n*12)/10`, `(n*15)/10` and `(n*17)/10`, instead of the floating-point products the generator truncates. For these factors the two agree. The relative rounding error of the doubles for 1.2, 1.5 and 1.7 is below half the spacing of doubles near the product. So a product that should be a whole number comes out exactly, and any other product is at least 0.1 away from a whole number.
- Emitter.Emit: keeps the one-code-point unfold keys as one-element targets. The generator prints just the element, `k[0]`. Ordering by the target and ordering by its only element agree.
- Code points are bounded by 16^6, the largest value a six-digit field can hold. The model has no other integer widths to mirror.

=== FILE: driver.dfy ===
/**
  The whole generator: parse every line, ingest the records, migrate the
  Turkic entries, print. Any error aborts the run before anything is printed.
  Reading the file and writing standard output are left to the caller: the
  input is the file's lines and the output is the printed tables as values.
 */
module Driver {
  import opened Wrappers
  import opened Types
  import opened LineParser
  import opened TableBuilder
  import opened Emitter
  import opened Ordering

  /** Parse, ingest and migrate: the tables the generator prints, or the error that aborts it. */
  function Build(lines: seq<string>): Result<Tables, Error> {
    match ParseAll(lines)
    case Failure(e) => Failure(e)
    case Success(recs) => BuildTables(recs)
  }

  /** One run of the generator on the lines of a data file. */
  function Run(lines: seq<string>): (r: Result<Output, Error>)
    ensures r.Failure? <==> Build(lines).Failure?
    ensures r.Failure? ==> r.error == Build(lines).error
    ensures r.Success? ==>
              var t := Build(lines).value;
              && Prints(r.value.caseFold, t.fold, CodepointLess)
              && Prints(r.value.caseFoldLocale, t.foldLocale, CodepointLess)
              && Prints(r.value.unfold11, t.unfold[0], TargetLess)
              && Prints(r.value.unfold11Locale, t.unfoldLocale[0], TargetLess)
              && Prints(r.value.unfold12, t.unfold[1], TargetLess)
              && Prints(r.value.unfold12Locale, t.unfoldLocale[1], TargetLess)
              && Prints(r.value.unfold13, t.unfold[2], TargetLess)
  {
    match Build(lines)
    case Failure(e) => Failure(e)
    case Success(t) => Success(Emit(t))
  }

  /**
    A run completes exactly when every line parses (its origin, and for a C/F
    line each target, is accepted by `int(field, 16)`) and the Turkic queue can
    be migrated: each queued origin has a C/F entry whose last target has at
    most two code points, and no two queued origins share that target.
   */
  lemma BuildSucceedsIff(lines: seq<string>)
    ensures Build(lines).Success? <==>
      && (forall i :: 0 <= i < |lines| ==> ParseLine(lines[i]).Success?)
      && var ing := Ingest(ParseAll(lines).value);
         && (forall i :: 0 <= i < |ing.turkic| ==> ing.turkic[i] in ing.fold && |ing.fold[ing.turkic[i]]| <= 2)
         && (forall i, j :: 0 <= i < j < |ing.turkic| ==> ing.fold[ing.turkic[i]] != ing.fold[ing.turkic[j]])
  {
    var parsed := forall i :: 0 <= i < |lines| ==> ParseLine(lines[i]).Success?;
    assert parsed <==> ParseAll(lines).Success?;
    if parsed {
      var recs := ParseAll(lines).value;
      assert Build(lines) == BuildTables(recs);
      MigrateAfterIngest(recs);
    }
  }

  /** The fold size hint counts each origin with a C/F record once. */
  lemma FoldSizeCountsOrigins(lines: seq<string>)
    requires Run(lines).Success?
    ensures var n := |Ingest(ParseAll(lines).value).fold|;
            10 * Run(lines).value.sizes.fold <= 12 * n < 10 * (Run(lines).value.sizes.fold + 1)
  {
    var recs := ParseAll(lines).value;
    assert Build(lines) == BuildTables(recs);
    MigratedFoldCount(recs);
  }
}

=== FILE: emitter.dfy ===
/**
  What the generator prints: each of the seven tables as its entries sorted
  by key, every entry with the number of values it lists, and four
  hash-table size hints. The C array syntax around the entries is not
  modelled; `Hex.Format04x` models the number format of every key and value.
 */
module Emitter {
  import opened Types
  import opened Ordering
  import opened TableBuilder

  /** One printed entry: key, value count, values. */
  datatype Row<K> = Row(key: K, count: nat, values: seq<Codepoint>)

  /**
    `rows` is how table `m` prints: one row per key, keys strictly ascending,
    each row carrying its key's values and their count.
   */
  ghost predicate Prints<K(!new)>(rows: seq<Row<K>>, m: map<K, seq<Codepoint>>, less: (K, K) -> bool) {
    && (forall i :: 0 <= i < |rows| ==>
          rows[i].key in m && rows[i].values == m[rows[i].key] && rows[i].count == |rows[i].values|)
    && (forall k :: k in m ==> exists i :: 0 <= i < |rows| && rows[i].key == k)
    && (forall i, j :: 0 <= i < j < |rows| ==> less(rows[i].key, rows[j].key))
  }

  /** `for k, v in sorted(m.items())`: the entries of `m` in ascending key order. */
  function TableRows<K(==,!new)>(m: map<K, seq<Codepoint>>, less: (K, K) -> bool): (rows: seq<Row<K>>)
    requires StrictTotalOn(less, m.Keys)
    ensures |rows| == |m|
    ensures Prints(rows, m, less)
  {
    var keys := SortedKeys(m.Keys, less);
    RowsOfPrint(keys, m, less);
    RowsOf(keys, m)
  }

  /** One row per key, in the order of `keys`. */
  function RowsOf<K>(keys: seq<K>, m: map<K, seq<Codepoint>>): (rows: seq<Row<K>>)
    requires forall i :: 0 <= i < |keys| ==> keys[i] in m
    ensures |rows| == |keys|
    ensures forall i :: 0 <= i < |keys| ==> rows[i] == Row(keys[i], |m[keys[i]]|, m[keys[i]])
  {
    seq(|keys|, i requires 0 <= i < |keys| => Row(keys[i], |m[keys[i]]|, m[keys[i]]))
  }

  /** Rows in the order of an ascending listing of `m`'s keys print `m`. */
  lemma RowsOfPrint<K(!new)>(keys: seq<K>, m: map<K, seq<Codepoint>>, less: (K, K) -> bool)
    requires |keys| == |m.Keys| && (forall k :: k in keys <==> k in m.Keys) && StrictlyAscending(keys, less)
    ensures |RowsOf(keys, m)| == |m|
    ensures Prints(RowsOf(keys, m), m, less)
  {
    var rows := RowsOf(keys, m);
    forall k | k in m
      ensures exists i :: 0 <= i < |rows| && rows[i].key == k
    {
      var i :| 0 <= i < |keys| && keys[i] == k;
      assert rows[i].key == k;
    }
  }

  function Keys<K>(rows: seq<Row<K>>): (ks: seq<K>)
    ensures |ks| == |rows| && forall i :: 0 <= i < |rows| ==> ks[i] == rows[i].key
  {
    seq(|rows|, i requires 0 <= i < |rows| => rows[i].key)
  }

  /** A table prints one way only: the output is fixed by the table's contents. */
  lemma PrintsUnique<K(!new)>(rows1: seq<Row<K>>, rows2: seq<Row<K>>, m: map<K, seq<Codepoint>>, less: (K, K) -> bool)
    requires StrictTotalOn(less, m.Keys)
    requires Prints(rows1, m, less) && Prints(rows2, m, less)
    ensures rows1 == rows2
  {
    var ks1 := Keys(rows1);
    var ks2 := Keys(rows2);
    forall k
      ensures (k in ks1 <==> k in m.Keys) && (k in ks2 <==> k in m.Keys)
    {
      if k in m {
        var i :| 0 <= i < |rows1| && rows1[i].key == k;
        assert ks1[i] == k;
        var j :| 0 <= j < |rows2| && rows2[j].key == k;
        assert ks2[j] == k;
      }
    }
    AscendingUnique(ks1, ks2, less, m.Keys);
    assert |rows1| == |rows2|;
    forall i | 0 <= i < |rows1|
      ensures rows1[i] == rows2[i]
    {
      assert rows1[i].key == ks1[i] == ks2[i] == rows2[i].key;
    }
  }

  /** The four `#define` size hints. */
  datatype Sizes = Sizes(fold: nat, unfold1: nat, unfold2: nat, unfold3: nat)

  /** `int(n * tenths / 10)` computed exactly: the floor of n scaled by tenths/10. */
  function Scaled(n: nat, tenths: nat): (r: nat)
    ensures 10 * r <= n * tenths < 10 * (r + 1)
  {
    n * tenths / 10
  }

  /**
    The size hints: fold entries scaled by 1.2, one- and two-code-point unfold
    keys by 1.2 and 1.5 (generic and locale tables together), three-code-point
    unfold keys by 1.7, each rounded down.
   */
  function TableSizes(t: Tables): (r: Sizes)
    ensures 10 * r.fold <= 12 * (|t.fold| + |t.foldLocale|) < 10 * (r.fold + 1)
    ensures 10 * r.unfold1 <= 12 * (|t.unfold[0]| + |t.unfoldLocale[0]|) < 10 * (r.unfold1 + 1)
    ensures 10 * r.unfold2 <= 15 * (|t.unfold[1]| + |t.unfoldLocale[1]|) < 10 * (r.unfold2 + 1)
    ensures 10 * r.unfold3 <= 17 * |t.unfold[2]| < 10 * (r.unfold3 + 1)
  {
    Sizes(
      Scaled(|t.fold| + |t.foldLocale|, 12),
      Scaled(|t.unfold[0]| + |t.unfoldLocale[0]|, 12),
      Scaled(|t.unfold[1]| + |t.unfoldLocale[1]|, 15),
      Scaled(|t.unfold[2]|, 17))
  }

  /** Everything the generator prints, in print order. */
  datatype Output = Output(
    caseFold: seq<Row<Codepoint>>,
    caseFoldLocale: seq<Row<Codepoint>>,
    unfold11: seq<Row<Target>>,
    unfold11Locale: seq<Row<Target>>,
    unfold12: seq<Row<Target>>,
    unfold12Locale: seq<Row<Target>>,
    unfold13: seq<Row<Target>>,
    sizes: Sizes)

  /** Prints the migrated tables: every table sorted by key, then the size hints. */
  function Emit(t: Tables): (out: Output)
    ensures Prints(out.caseFold, t.fold, CodepointLess)
    ensures Prints(out.caseFoldLocale, t.foldLocale, CodepointLess)
    ensures Prints(out.unfold11, t.unfold[0], TargetLess)
    ensures Prints(out.unfold11Locale, t.unfoldLocale[0], TargetLess)
    ensures Prints(out.unfold12, t.unfold[1], TargetLess)
    ensures Prints(out.unfold12Locale, t.unfoldLocale[1], TargetLess)
    ensures Prints(out.unfold13, t.unfold[2], TargetLess)
    ensures 10 * out.sizes.fold <= 12 * (|t.fold| + |t.foldLocale|) < 10 * (out.sizes.fold + 1)
    ensures 10 * out.sizes.unfold1 <= 12 * (|t.unfold[0]| + |t.unfoldLocale[0]|) < 10 * (out.sizes.unfold1 + 1)
    ensures 10 * out.sizes.unfold2 <= 15 * (|t.unfold[1]| + |t.unfoldLocale[1]|) < 10 * (out.sizes.unfold2 + 1)
    ensures 10 * out.sizes.unfold3 <= 17 * |t.unfold[2]| < 10 * (out.sizes.unfold3 + 1)
  {
    CodepointLessIsStrictTotal(t.fold.Keys);
    CodepointLessIsStrictTotal(t.foldLocale.Keys);
    TargetLessIsStrictTotal(t.unfold[0].Keys);
    TargetLessIsStrictTotal(t.unfold[1].Keys);
    TargetLessIsStrictTotal(t.unfold[2].Keys);
    TargetLessIsStrictTotal(t.unfoldLocale[0].Keys);
    TargetLessIsStrictTotal(t.unfoldLocale[1].Keys);
    Output(
      TableRows(t.fold, CodepointLess),
      TableRows(t.foldLocale, CodepointLess),
      TableRows(t.unfold[0], TargetLess),
      TableRows(t.unfoldLocale[0], TargetLess),
      TableRows(t.unfold[1], TargetLess),
      TableRows(t.unfoldLocale[1], TargetLess),
      TableRows(t.unfold[2], TargetLess),
      TableSizes(t))
  }
}

=== FILE: hex.dfy ===
/**
  Hexadecimal digits: the reader used on the fields of a case-folding line
  (Python's `int(s, 16)`) and the `"%04x"` writer used when the tables are
  printed.
 */
module Hex {

  /** The digits `int(s, 16)` accepts, in either case. */
  predicate IsHexDigit(c: char) {
    '0' <= c <= '9' || 'a' <= c <= 'f' || 'A' <= c <= 'F'
  }

  predicate AllHexDigits(s: string) {
    forall i :: 0 <= i < |s| ==> IsHexDigit(s[i])
  }

  /** The `0x` or `0X` prefix `int(s, 16)` skips before the digits. */
  predicate HasRadixPrefix(s: string) {
    |s| > 2 && s[0] == '0' && (s[1] == 'x' || s[1] == 'X')
  }

  /**
    The strings of digits and letters that `int(s, 16)` reads: hex digits,
    optionally after a radix prefix.
   */
  predicate IsHexLiteral(s: string) {
    AllHexDigits(s) || (HasRadixPrefix(s) && AllHexDigits(s[2..]))
  }

  function DigitValue(c: char): (v: nat)
    requires IsHexDigit(c)
    ensures v < 16
  {
    if '0' <= c <= '9' then c as int - '0' as int
    else if 'a' <= c <= 'f' then c as int - 'a' as int + 10
    else c as int - 'A' as int + 10
  }

  function Pow16(n: nat): nat {
    if n == 0 then 1 else 16 * Pow16(n - 1)
  }

  /** The number a string of hex digits denotes, most significant digit first. */
  function Value(s: string): nat
    requires AllHexDigits(s)
    decreases |s|
  {
    if s == [] then 0 else 16 * Value(s[..|s| - 1]) + DigitValue(s[|s| - 1])
  }

  /** The value of a two-digit string, digit by digit. */
  lemma ValueOfTwo(s: string)
    requires |s| == 2 && AllHexDigits(s)
    ensures Value(s) == 16 * DigitValue(s[0]) + DigitValue(s[1])
  {
    var h := s[..1];
    assert h[..0] == [] && h[0] == s[0] && s[..|s| - 1] == h;
    assert Value(h) == DigitValue(s[0]);
  }

  /** The value of a four-digit string, digit by digit. */
  lemma ValueOfFour(s: string)
    requires |s| == 4 && AllHexDigits(s)
    ensures Value(s) == 4096 * DigitValue(s[0]) + 256 * DigitValue(s[1]) + 16 * DigitValue(s[2]) + DigitValue(s[3])
  {
    assert s[..3][..2] == s[..2];
    ValueOfTwo(s[..2]);
  }

  /** A string of `k` hex digits denotes a number below 16^k. */
  lemma {:induction false} ValueBound(s: string)
    requires AllHexDigits(s)
    ensures Value(s) < Pow16(|s|)
  {
    if s != [] {
      ValueBound(s[..|s| - 1]);
    }
  }

  /** Six digits, the widest field a case-folding line admits, stay below 16^6. */
  lemma SixDigitBound(s: string)
    requires AllHexDigits(s) && |s| <= 6
    ensures Value(s) < 0x100_0000
  {
    ValueBound(s);
    Pow16Monotone(|s|, 6);
    assert Pow16(6) == 0x100_0000 by {
      assert Pow16(1) == 16;
      assert Pow16(2) == 256;
      assert Pow16(3) == 4096;
      assert Pow16(4) == 65536;
      assert Pow16(5) == 1048576;
    }
  }

  /** The number `int(s, 16)` returns for a literal: the value of its digits, prefix skipped. */
  function LiteralValue(s: string): nat
    requires IsHexLiteral(s)
  {
    if HasRadixPrefix(s) then Value(s[2..]) else Value(s)
  }

  /** A literal of at most six characters stays below 16^6, with or without a prefix. */
  lemma LiteralBound(s: string)
    requires IsHexLiteral(s) && |s| <= 6
    ensures LiteralValue(s) < 0x100_0000
  {
    if HasRadixPrefix(s) {
      SixDigitBound(s[2..]);
    } else {
      SixDigitBound(s);
    }
  }

  /** A prefixed literal denotes the same number as its digits alone. */
  lemma PrefixedLiteral(d: string)
    requires AllHexDigits(d) && d != []
    ensures IsHexLiteral("0X" + d) && IsHexLiteral("0x" + d)
    ensures LiteralValue("0X" + d) == LiteralValue("0x" + d) == LiteralValue(d) == Value(d)
  {
    assert ("0X" + d)[2..] == d;
    assert ("0x" + d)[2..] == d;
  }

  lemma {:induction false} Pow16Monotone(a: nat, b: nat)
    requires a <= b
    ensures Pow16(a) <= Pow16(b)
  {
    if a < b {
      Pow16Monotone(a, b - 1);
    }
  }

  /** The lower-case digit `"%x"` prints for `d`. */
  function LowerDigit(d: nat): (c: char)
    requires d < 16
    ensures IsHexDigit(c) && DigitValue(c) == d
    ensures !('A' <= c <= 'Z')
  {
    if d < 10 then (48 + d) as char else (87 + d) as char
  }

  /** The shortest lower-case hexadecimal spelling of `n`. */
  function Digits(n: nat): (s: string)
    ensures 1 <= |s|
    ensures AllHexDigits(s)
    ensures forall i :: 0 <= i < |s| ==> !('A' <= s[i] <= 'Z')
    decreases n
  {
    if n < 16 then [LowerDigit(n)] else Digits(n / 16) + [LowerDigit(n % 16)]
  }

  function Zeros(k: nat): (s: string)
    ensures |s| == k
  {
    seq(k, _ => '0')
  }

  /** `"%04x" % n`: lower-case hexadecimal, zero-padded to at least four digits. */
  function Format04x(n: nat): string {
    var d := Digits(n);
    if |d| < 4 then Zeros(4 - |d|) + d else d
  }

  lemma {:induction false} DigitsValue(n: nat)
    ensures Value(Digits(n)) == n
    decreases n
  {
    if n >= 16 {
      DigitsValue(n / 16);
      var d := Digits(n);
      assert d[..|d| - 1] == Digits(n / 16);
    }
  }

  lemma {:induction false} DigitsLength(n: nat, k: nat)
    requires 1 <= k && n < Pow16(k)
    ensures |Digits(n)| <= k
    decreases k
  {
    if n >= 16 {
      assert k > 1;
      DigitsLength(n / 16, k - 1);
    }
  }

  lemma {:induction false} ZerosValue(k: nat)
    ensures AllHexDigits(Zeros(k)) && Value(Zeros(k)) == 0
  {
    if k > 0 {
      assert Zeros(k)[..k - 1] == Zeros(k - 1);
      ZerosValue(k - 1);
    }
  }

  /** Leading zeros do not change the number a digit string denotes. */
  lemma {:induction false} LeadingZerosValue(k: nat, s: string)
    requires AllHexDigits(s)
    ensures AllHexDigits(Zeros(k) + s) && Value(Zeros(k) + s) == Value(s)
    decreases |s|
  {
    ZerosValue(k);
    var z := Zeros(k) + s;
    if s == [] {
      assert z == Zeros(k);
    } else {
      assert z[..|z| - 1] == Zeros(k) + s[..|s| - 1];
      assert z[|z| - 1] == s[|s| - 1];
      LeadingZerosValue(k, s[..|s| - 1]);
    }
  }

  /**
    Reading back what `"%04x"` printed gives the number again: the printed
    text is at least four lower-case digits, exactly four below 0x10000.
   */
  lemma Format04xRoundTrip(n: nat)
    ensures AllHexDigits(Format04x(n)) && Value(Format04x(n)) == n
    ensures |Format04x(n)| >= 4
    ensures n < 0x10000 ==> |Format04x(n)| == 4
    ensures forall i :: 0 <= i < |Format04x(n)| ==> !('A' <= Format04x(n)[i] <= 'Z')
  {
    var d := Digits(n);
    var f := Format04x(n);
    DigitsValue(n);
    if |d| < 4 {
      LeadingZerosValue(4 - |d|, d);
      assert f == Zeros(4 - |d|) + d;
      assert forall i :: 0 <= i < |f| ==> !('A' <= f[i] <= 'Z') by {
        forall i | 0 <= i < |f|
          ensures !('A' <= f[i] <= 'Z')
        {
          if i < 4 - |d| {
            assert f[i] == '0';
          } else {
            assert f[i] == d[i - (4 - |d|)];
          }
        }
      }
    }
    if n < 0x10000 {
      assert Pow16(4) == 0x10000 by {
        assert Pow16(1) == 16;
        assert Pow16(2) == 256;
        assert Pow16(3) == 4096;
      }
      DigitsLength(n, 4);
    }
  }
}

=== FILE: line_parser.dfy ===
/**
  Recognising one line of `CaseFolding.txt`.

  The generator accepts a line when it starts with
  `<field>; <C|F|T>; <field>[ <field>[ <field>]];` where a field is four to six
  characters from `[0-9A-Z]`; anything after the closing `;` is ignored, and
  every other line (comments, blank lines, `S` lines, malformed lines) is
  skipped. Fields are then read as hexadecimal.
 */
module LineParser {
  import opened Wrappers
  import opened Hex
  import opened Types

  /** The character class of a field: digits and ALL upper-case letters. */
  predicate IsFieldChar(c: char) {
    '0' <= c <= '9' || 'A' <= c <= 'Z'
  }

  predicate IsField(x: string) {
    4 <= |x| <= 6 && forall i :: 0 <= i < |x| ==> IsFieldChar(x[i])
  }

  /** The text of the fields of a recognised line, before any hex decoding. */
  datatype Fields = Fields(origin: string, status: char, targets: seq<string>)

  /** The grammar's constraints on the pieces of a line. */
  predicate WellFormed(f: Fields) {
    && IsField(f.origin)
    && f.status in "CFT"
    && 1 <= |f.targets| <= 3
    && forall i :: 0 <= i < |f.targets| ==> IsField(f.targets[i])
  }

  /** Fields joined by single spaces. */
  function JoinSpaced(xs: seq<string>): string
    decreases |xs|
  {
    if xs == [] then ""
    else if |xs| == 1 then xs[0]
    else xs[0] + " " + JoinSpaced(xs[1..])
  }

  /** The text the grammar matches for the given fields, up to and including the closing `;`. */
  function Render(f: Fields): string {
    f.origin + "; " + [f.status] + "; " + JoinSpaced(f.targets) + ";"
  }

  /** The length of the longest run of field characters at the start of `s`. */
  function RunLength(s: string): (n: nat)
    ensures n <= |s|
    ensures forall i :: 0 <= i < n ==> IsFieldChar(s[i])
    ensures n < |s| ==> !IsFieldChar(s[n])
    decreases |s|
  {
    if s == [] || !IsFieldChar(s[0]) then 0 else 1 + RunLength(s[1..])
  }

  /**
    The target fields at the start of `s`, `seen` of them having been read
    already: a field, then either `;` or a space and a further field while
    fewer than three have been read.
   */
  function TargetFields(s: string, seen: nat): (r: Option<seq<string>>)
    requires seen <= 2
    ensures r.Some? ==> 1 <= |r.value| <= 3 - seen
    ensures r.Some? ==> forall i :: 0 <= i < |r.value| ==> IsField(r.value[i])
    decreases 2 - seen
  {
    var n := RunLength(s);
    if !(4 <= n <= 6) || n == |s| then None
    else if s[n] == ';' then Some([s[..n]])
    else if s[n] == ' ' && seen < 2 then
      match TargetFields(s[n + 1..], seen + 1)
      case None => None
      case Some(rest) => Some([s[..n]] + rest)
    else None
  }

  /** The fields read are the fields the text starts with, joined by spaces and closed by `;`. */
  lemma {:induction false} TargetFieldsSound(s: string, seen: nat)
    requires seen <= 2 && TargetFields(s, seen).Some?
    ensures JoinSpaced(TargetFields(s, seen).value) + ";" <= s
    decreases 2 - seen
  {
    var n := RunLength(s);
    if s[n] == ';' {
      LastFieldPrefix(s, n);
    } else {
      var rest := TargetFields(s[n + 1..], seen + 1).value;
      TargetFieldsSound(s[n + 1..], seen + 1);
      NextFieldPrefix(s, n, rest);
    }
  }

  /** A prefix of `s` followed by a prefix of the rest of `s` is a prefix of `s`. */
  lemma PrefixAfterPrefix(a: string, b: string, s: string)
    requires a <= s && b <= s[|a|..]
    ensures a + b <= s
  {
    assert a + b == s[..|a| + |b|];
  }

  lemma RecogniseSound(line: string, n: nat, f: Fields)
    requires 4 <= n <= 6 && n + 5 <= |line|
    requires forall i :: 0 <= i < n ==> IsFieldChar(line[i])
    requires line[n] == ';' && line[n + 1] == ' ' && line[n + 2] in "CFT"
    requires line[n + 3] == ';' && line[n + 4] == ' '
    requires f.origin == line[..n] && f.status == line[n + 2]
    requires 1 <= |f.targets| <= 3 && forall i :: 0 <= i < |f.targets| ==> IsField(f.targets[i])
    requires JoinSpaced(f.targets) + ";" <= line[n + 5..]
    ensures WellFormed(f) && Render(f) <= line
  {
    var head := line[..n] + "; " + [line[n + 2]] + "; ";
    assert line[n..n + 5] == "; " + [line[n + 2]] + "; ";
    assert line[..n + 5] == line[..n] + line[n..n + 5];
    assert head == line[..n + 5];
    assert Render(f) == head + (JoinSpaced(f.targets) + ";");
    PrefixAfterPrefix(head, JoinSpaced(f.targets) + ";", line);
  }

  lemma LastFieldPrefix(s: string, n: nat)
    requires n < |s| && s[n] == ';'
    ensures JoinSpaced([s[..n]]) + ";" <= s
  {
    assert JoinSpaced([s[..n]]) + ";" == s[..n + 1];
  }

  lemma NextFieldPrefix(s: string, n: nat, rest: seq<string>)
    requires n < |s| && s[n] == ' ' && rest != []
    requires JoinSpaced(rest) + ";" <= s[n + 1..]
    ensures JoinSpaced([s[..n]] + rest) + ";" <= s
  {
    var r := [s[..n]] + rest;
    assert r[1..] == rest;
    assert JoinSpaced(r) + ";" == s[..n + 1] + (JoinSpaced(rest) + ";");
    PrefixAfterPrefix(s[..n + 1], JoinSpaced(rest) + ";", s);
  }

  /** The hand-written recogniser that stands in for the generator's regular expression. */
  function Recognise(line: string): (r: Option<Fields>)
    ensures r.Some? ==> WellFormed(r.value) && Render(r.value) <= line
  {
    var n := RunLength(line);
    if 4 <= n <= 6 && n + 5 <= |line| && line[n] == ';' && line[n + 1] == ' '
       && line[n + 2] in "CFT" && line[n + 3] == ';' && line[n + 4] == ' '
    then
      match TargetFields(line[n + 5..], 0)
      case None => None
      case Some(ts) =>
        var f := Fields(line[..n], line[n + 2], ts);
        TargetFieldsSound(line[n + 5..], 0);
        RecogniseSound(line, n, f);
        Some(f)
    else None
  }

  /** A field followed by a character outside the class is exactly the run the recogniser measures. */
  lemma {:induction false} RunLengthOfField(x: string, s: string)
    requires forall i :: 0 <= i < |x| ==> IsFieldChar(x[i])
    requires x <= s && |x| < |s| && !IsFieldChar(s[|x|])
    ensures RunLength(s) == |x|
    decreases |x|
  {
    if x != [] {
      RunLengthOfField(x[1..], s[1..]);
    }
  }

  /** The pieces of a prefix are found in order at the start of the text. */
  lemma PrefixParts(a: string, b: string, s: string)
    requires a + b <= s
    ensures a <= s && b <= s[|a|..]
  {
    assert s[..|a|] == (a + b)[..|a|] == a;
    assert s[|a|..][..|b|] == (a + b)[|a|..] == b;
  }

  lemma {:induction false} TargetFieldsComplete(s: string, seen: nat, ts: seq<string>)
    requires seen <= 2 && 1 <= |ts| <= 3 - seen
    requires forall i :: 0 <= i < |ts| ==> IsField(ts[i])
    requires JoinSpaced(ts) + ";" <= s
    ensures TargetFields(s, seen) == Some(ts)
    decreases |ts|
  {
    var x := ts[0];
    var n := |x|;
    if |ts| == 1 {
      assert JoinSpaced(ts) + ";" == x + ";";
      FieldAt(x, ";", s);
      assert [x] == ts;
    } else {
      var rest := ts[1..];
      var tail := " " + (JoinSpaced(rest) + ";");
      assert JoinSpaced(ts) + ";" == x + tail;
      FieldAt(x, tail, s);
      PrefixParts(" ", JoinSpaced(rest) + ";", s[n..]);
      assert s[n..][1..] == s[n + 1..];
      TargetFieldsComplete(s[n + 1..], seen + 1, rest);
      TargetFieldsStep(s, seen, n, rest);
      assert [x] + rest == ts;
    }
  }

  /** A field, a space, and further fields read as those fields. */
  lemma TargetFieldsStep(s: string, seen: nat, n: nat, rest: seq<string>)
    requires seen < 2 && RunLength(s) == n && 4 <= n <= 6 && n < |s| && s[n] == ' '
    requires TargetFields(s[n + 1..], seen + 1) == Some(rest)
    ensures TargetFields(s, seen) == Some([s[..n]] + rest)
  {
    assert !(!(4 <= n <= 6) || n == |s|) && s[n] != ';';
  }

  /** A field followed by a delimiter: the recogniser measures the field and finds the delimiter after it. */
  lemma FieldAt(x: string, tail: string, s: string)
    requires IsField(x) && tail != [] && !IsFieldChar(tail[0])
    requires x + tail <= s
    ensures RunLength(s) == |x| && |x| < |s| && s[..|x|] == x && s[|x|] == tail[0] && tail <= s[|x|..]
  {
    PrefixParts(x, tail, s);
    assert s[|x|] == s[|x|..][0] == tail[0];
    RunLengthOfField(x, s);
  }

  /** Where the pieces of a line that starts with the grammar's text for `f` sit. */
  lemma RenderedLayout(line: string, f: Fields)
    requires WellFormed(f) && Render(f) <= line
    ensures var n := |f.origin|;
            && n + 5 <= |line| && line[..n] == f.origin
            && line[n] == ';' && line[n + 1] == ' ' && line[n + 2] == f.status
            && line[n + 3] == ';' && line[n + 4] == ' '
            && JoinSpaced(f.targets) + ";" <= line[n + 5..]
  {
    var n := |f.origin|;
    var tail := JoinSpaced(f.targets) + ";";
    var head := "; " + [f.status] + "; ";
    assert Render(f) == f.origin + (head + tail);
    PrefixParts(f.origin, head + tail, line);
    PrefixParts(head, tail, line[n..]);
    assert line[n..][5..] == line[n + 5..];
    assert line[n] == line[n..][0] == ';';
    assert line[n + 1] == line[n..][1] == ' ';
    assert line[n + 2] == line[n..][2] == f.status;
    assert line[n + 3] == line[n..][3] == ';';
    assert line[n + 4] == line[n..][4] == ' ';
  }

  /** A line whose origin run, separators and target fields are in place is recognised with them. */
  lemma RecogniseAt(line: string, n: nat, ts: seq<string>)
    requires RunLength(line) == n && 4 <= n <= 6 && n + 5 <= |line|
    requires line[n] == ';' && line[n + 1] == ' ' && line[n + 2] in "CFT" && line[n + 3] == ';' && line[n + 4] == ' '
    requires TargetFields(line[n + 5..], 0) == Some(ts)
    ensures Recognise(line) == Some(Fields(line[..n], line[n + 2], ts))
  {
    var m := RunLength(line);
    assert 4 <= m <= 6 && m + 5 <= |line| && line[m] == ';' && line[m + 1] == ' '
           && line[m + 2] in "CFT" && line[m + 3] == ';' && line[m + 4] == ' ';
    assert TargetFields(line[m + 5..], 0) == Some(ts);
  }

  /** Every line that starts with the grammar's text for well-formed fields is recognised with those fields. */
  lemma RecogniseComplete(line: string, f: Fields)
    requires WellFormed(f) && Render(f) <= line
    ensures Recognise(line) == Some(f)
  {
    var n := |f.origin|;
    RenderedLayout(line, f);
    assert RunLength(line) == n by {
      assert f.origin <= line && !IsFieldChar(line[n]);
      RunLengthOfField(f.origin, line);
    }
    assert TargetFields(line[n + 5..], 0) == Some(f.targets) by {
      TargetFieldsComplete(line[n + 5..], 0, f.targets);
    }
    RecogniseAt(line, n, f.targets);
    assert Fields(line[..n], line[n + 2], f.targets) == f;
  }

  /**
    The recogniser accepts a line with fields `f` exactly when `f` satisfies the
    grammar and the line starts with the text the grammar matches for `f`.
    Every other line (comment, blank, `S` status, malformed) is rejected.
   */
  lemma RecogniseMatchesGrammar(line: string, f: Fields)
    ensures Recognise(line) == Some(f) <==> WellFormed(f) && Render(f) <= line
  {
    if WellFormed(f) && Render(f) <= line {
      RecogniseComplete(line, f);
    }
  }

  /** A line whose status letter is `S` (simple folding only) is never recognised. */
  lemma SimpleStatusRejected(line: string)
    requires 4 <= RunLength(line) && RunLength(line) + 2 < |line|
    requires line[RunLength(line) + 2] == 'S'
    ensures Recognise(line) == None
  {
  }

  /**
    Reads one field as `int(field, 16)` does: hex digits, possibly after a
    leading `0X`. Any other letter from G to Z makes it raise.
   */
  function DecodeField(x: string): (r: Result<Codepoint, Error>)
    requires IsField(x)
    ensures r.Success? <==> IsHexLiteral(x)
    ensures r.Success? ==> r.value == LiteralValue(x)
    ensures r.Failure? ==> r.error == InvalidHex(x)
  {
    if IsHexLiteral(x) then
      LiteralBound(x);
      Success(LiteralValue(x))
    else Failure(InvalidHex(x))
  }

  /**
    A field fails to read exactly when it holds a letter from G to Z that is
    not the `X` of a leading `0X`.
   */
  lemma DecodeFieldLetters(x: string)
    requires IsField(x)
    ensures DecodeField(x).Failure? <==>
              exists i :: 0 <= i < |x| && 'G' <= x[i] <= 'Z' && !(i == 1 && x[0] == '0' && x[1] == 'X')
  {
    var bad := exists i :: 0 <= i < |x| && 'G' <= x[i] <= 'Z' && !(i == 1 && x[0] == '0' && x[1] == 'X');
    if bad {
      var i :| 0 <= i < |x| && 'G' <= x[i] <= 'Z' && !(i == 1 && x[0] == '0' && x[1] == 'X');
      assert !IsHexDigit(x[i]);
      if HasRadixPrefix(x) {
        assert i != 1;
        if i > 1 {
          assert x[2..][i - 2] == x[i];
        }
      }
    } else {
      if x[0] == '0' && x[1] == 'X' {
        assert HasRadixPrefix(x);
        assert forall j :: 0 <= j < |x[2..]| ==> x[2..][j] == x[j + 2];
        assert AllHexDigits(x[2..]);
      } else {
        assert AllHexDigits(x);
      }
    }
  }

  /** Reads the target fields in order, stopping at the first that `int(field, 16)` rejects. */
  function DecodeFields(xs: seq<string>): (r: Result<seq<Codepoint>, Error>)
    requires forall i :: 0 <= i < |xs| ==> IsField(xs[i])
    ensures r.Success? <==> forall i :: 0 <= i < |xs| ==> IsHexLiteral(xs[i])
    ensures r.Success? ==> |r.value| == |xs| && forall i :: 0 <= i < |xs| ==> r.value[i] == LiteralValue(xs[i])
    ensures r.Failure? ==> exists i :: 0 <= i < |xs| && !IsHexLiteral(xs[i]) && r.error == InvalidHex(xs[i])
                                      && forall j :: 0 <= j < i ==> IsHexLiteral(xs[j])
    decreases |xs|
  {
    if xs == [] then Success([])
    else match DecodeField(xs[0])
      case Failure(e) => Failure(e)
      case Success(c) =>
        match DecodeFields(xs[1..])
        case Failure(e) =>
          assert forall i :: 1 <= i < |xs| ==> xs[1..][i - 1] == xs[i];
          Failure(e)
        case Success(cs) =>
          assert forall i :: 1 <= i < |xs| ==> xs[1..][i - 1] == xs[i];
          Success([c] + cs)
  }

  /** Target fields that each read to a code point read, together, to those code points in order. */
  lemma {:induction false} DecodeFieldsEach(xs: seq<string>, cs: seq<Codepoint>)
    requires |xs| == |cs| && forall i :: 0 <= i < |xs| ==> IsField(xs[i]) && DecodeField(xs[i]) == Success(cs[i])
    ensures DecodeFields(xs) == Success(cs)
  {
    assert forall i :: 0 <= i < |xs| ==> IsHexLiteral(xs[i]) && LiteralValue(xs[i]) == cs[i];
    var r := DecodeFields(xs);
    assert r.Success?;
    assert forall i :: 0 <= i < |xs| ==> r.value[i] == cs[i];
    assert r.value == cs;
  }

  /**
    One line of the data file: `None` for a line the recogniser skips, the
    record of a recognised line, or the error of a field that is not
    hexadecimal. The origin is read first; a `T` line's target fields are
    never read.
   */
  function ParseLine(line: string): (r: Result<Option<Record>, Error>)
    ensures Recognise(line).None? ==> r == Success(None)
    ensures r.Failure? <==>
              && Recognise(line).Some?
              && var f := Recognise(line).value;
                 || !IsHexLiteral(f.origin)
                 || (f.status != 'T' && exists i :: 0 <= i < |f.targets| && !IsHexLiteral(f.targets[i]))
    ensures Recognise(line).Some? && r.Success? ==> r.value.Some?
    ensures Recognise(line).Some? && !IsHexLiteral(Recognise(line).value.origin) ==>
              r == Failure(InvalidHex(Recognise(line).value.origin))
    ensures Recognise(line).Some? && IsHexLiteral(Recognise(line).value.origin) && r.Failure? ==>
              DecodeFields(Recognise(line).value.targets).Failure?
              && r.error == DecodeFields(Recognise(line).value.targets).error
    ensures r.Success? && r.value.Some? ==>
              && Recognise(line).Some?
              && var f := Recognise(line).value;
                 var rec := r.value.value;
                 && IsHexLiteral(f.origin) && rec.origin == LiteralValue(f.origin)
                 && (rec.TurkicOverride? <==> f.status == 'T')
                 && (rec.Mapping? ==> && (rec.status == Common <==> f.status == 'C')
                                      && (rec.status == Full <==> f.status == 'F')
                                      && |rec.target| == |f.targets|
                                      && forall i :: 0 <= i < |f.targets| ==>
                                           IsHexLiteral(f.targets[i]) && rec.target[i] == LiteralValue(f.targets[i]))
  {
    match Recognise(line)
    case None => Success(None)
    case Some(f) =>
      match DecodeField(f.origin)
      case Failure(e) => Failure(e)
      case Success(o) =>
        if f.status == 'T' then Success(Some(TurkicOverride(o)))
        else match DecodeFields(f.targets)
          case Failure(e) => Failure(e)
          case Success(ts) =>
            Success(Some(Mapping(o, if f.status == 'C' then Common else Full, ts)))
  }

  /** A line that starts with the text of well-formed C/F fields, all of which read, gives their mapping. */
  lemma ParseMappingLine(line: string, f: Fields, o: Codepoint, ts: Target)
    requires WellFormed(f) && Render(f) <= line && f.status != 'T'
    requires DecodeField(f.origin) == Success(o) && DecodeFields(f.targets) == Success(ts)
    ensures ParseLine(line) == Success(Some(Mapping(o, if f.status == 'C' then Common else Full, ts)))
  {
    RecogniseComplete(line, f);
  }

  /** A line that starts with the text of well-formed T fields gives the Turkic record of its origin. */
  lemma ParseTurkicLine(line: string, f: Fields, o: Codepoint)
    requires WellFormed(f) && Render(f) <= line && f.status == 'T'
    requires DecodeField(f.origin) == Success(o)
    ensures ParseLine(line) == Success(Some(TurkicOverride(o)))
  {
    RecogniseComplete(line, f);
  }

  /** The records a line contributes: none or one. */
  function Contribution(o: Option<Record>): seq<Record> {
    match o
    case None => []
    case Some(rec) => [rec]
  }

  /** Reads one line of the data file: no record, one record, or the error that aborts the run. */
  type LineReader = string -> Result<Option<Record>, Error>

  /**
    Reads the lines in file order. The run aborts at the first line `read`
    fails on, so the result is either every record or that line's error.
   */
  function ParseEach(read: LineReader, lines: seq<string>): (r: Result<seq<Record>, Error>)
    ensures r.Success? <==> forall i :: 0 <= i < |lines| ==> read(lines[i]).Success?
    ensures r.Success? ==> |r.value| <= |lines|
    decreases |lines|
  {
    if lines == [] then Success([])
    else
      assert forall i :: 1 <= i < |lines| ==> lines[1..][i - 1] == lines[i];
      match read(lines[0])
      case Failure(e) => Failure(e)
      case Success(o) =>
        match ParseEach(read, lines[1..])
        case Failure(e) => Failure(e)
        case Success(rs) => Success(Contribution(o) + rs)
  }

  /** The generator's pass over the data file. */
  function ParseAll(lines: seq<string>): Result<seq<Record>, Error> {
    ParseEach(ParseLine, lines)
  }

  /** A run that aborts reports the error of the first line `read` fails on. */
  lemma {:induction false} ParseEachFirstError(read: LineReader, lines: seq<string>)
    requires ParseEach(read, lines).Failure?
    ensures exists i :: 0 <= i < |lines| && read(lines[i]) == Failure(ParseEach(read, lines).error)
                        && forall j :: 0 <= j < i ==> read(lines[j]).Success?
    decreases |lines|
  {
    if read(lines[0]).Success? {
      var tail := lines[1..];
      ParseEachFirstError(read, tail);
      var k :| 0 <= k < |tail| && read(tail[k]) == Failure(ParseEach(read, tail).error)
               && forall j :: 0 <= j < k ==> read(tail[j]).Success?;
      assert read(lines[k + 1]) == Failure(ParseEach(read, lines).error);
      assert forall j :: 0 <= j < k + 1 ==> read(lines[j]).Success?;
    }
  }

  /** Reading two runs of lines back to back: the first error wins, otherwise the records concatenate. */
  lemma {:induction false} ParseEachAppend(read: LineReader, a: seq<string>, b: seq<string>)
    ensures ParseEach(read, a + b) ==
      match ParseEach(read, a)
      case Failure(e) => Failure(e)
      case Success(ra) =>
        match ParseEach(read, b)
        case Failure(e) => Failure(e)
        case Success(rb) => Success(ra + rb)
    decreases |a|
  {
    if a == [] {
      assert a + b == b;
      match ParseEach(read, b)
      case Failure(e) =>
      case Success(rb) =>
        assert [] + rb == rb;
    } else {
      assert (a + b)[1..] == a[1..] + b;
      ParseEachAppend(read, a[1..], b);
      match read(a[0])
      case Failure(e) =>
      case Success(o) =>
        match ParseEach(read, a[1..])
        case Failure(e) =>
        case Success(ra) =>
          match ParseEach(read, b)
          case Failure(e) =>
          case Success(rb) =>
            assert Contribution(o) + (ra + rb) == (Contribution(o) + ra) + rb;
    }
  }

  /** When every line yields one record, the pass yields those records in line order. */
  lemma {:induction false} ParseEachRecords(read: LineReader, lines: seq<string>, recs: seq<Record>)
    requires |lines| == |recs|
    requires forall i :: 0 <= i < |lines| ==> read(lines[i]) == Success(Some(recs[i]))
    ensures ParseEach(read, lines) == Success(recs)
    decreases |lines|
  {
    if lines != [] {
      assert forall i :: 0 <= i < |lines| - 1 ==> lines[1..][i] == lines[i + 1] && recs[1..][i] == recs[i + 1];
      ParseEachRecords(read, lines[1..], recs[1..]);
      assert [recs[0]] + recs[1..] == recs;
    }
  }

  /** A line that yields no record can be dropped without changing the result. */
  lemma DropSilentLine(read: LineReader, before: seq<string>, line: string, after: seq<string>)
    requires read(line) == Success(None)
    ensures ParseEach(read, before + [line] + after) == ParseEach(read, before + after)
  {
    assert ParseEach(read, [line]) == Success([]) by {
      assert [line][1..] == [];
    }
    assert ParseEach(read, before + [line]) == ParseEach(read, before) by {
      ParseEachAppend(read, before, [line]);
      if ParseEach(read, before).Success? {
        assert ParseEach(read, before).value + [] == ParseEach(read, before).value;
      }
    }
    ParseEachAppend(read, before + [line], after);
    ParseEachAppend(read, before, after);
  }

  /**
    A line the recogniser rejects (comment, blank, `S` status, malformed) has no
    effect: removing it from the file leaves the parse result unchanged.
   */
  lemma SkippedLineHasNoEffect(before: seq<string>, line: string, after: seq<string>)
    requires Recognise(line).None?
    ensures ParseAll(before + [line] + after) == ParseAll(before + after)
  {
    DropSilentLine(ParseLine, before, line, after);
  }
}

=== FILE: ordering.dfy ===
/**
  Key orders and sorting of a table's keys, standing in for Python's
  `sorted(table.items())`: integers in numeric order, tuples in
  lexicographic order.
 */
module Ordering {
  import opened Types

  /** `less` is a strict total order on the elements of `s`. */
  ghost predicate StrictTotalOn<K>(less: (K, K) -> bool, s: set<K>) {
    && (forall a :: a in s ==> !less(a, a))
    && (forall a, b, c :: a in s && b in s && c in s && less(a, b) && less(b, c) ==> less(a, c))
    && (forall a, b :: a in s && b in s && a != b ==> less(a, b) || less(b, a))
  }

  ghost predicate StrictlyAscending<K>(xs: seq<K>, less: (K, K) -> bool) {
    forall i, j :: 0 <= i < j < |xs| ==> less(xs[i], xs[j])
  }

  /** `m` comes before every other element of `s`. */
  predicate IsLeast<K(==)>(m: K, s: set<K>, less: (K, K) -> bool) {
    m in s && forall x :: x in s && x != m ==> less(m, x)
  }

  /** A non-empty finite set has a least element under a strict total order. */
  lemma {:induction false} LeastExists<K>(s: set<K>, less: (K, K) -> bool)
    requires s != {} && StrictTotalOn(less, s)
    ensures exists m :: IsLeast(m, s, less)
    decreases s
  {
    var x :| x in s;
    if s != {x} {
      var rest := s - {x};
      LeastExists(rest, less);
      var m :| IsLeast(m, rest, less);
      if less(x, m) {
        assert IsLeast(x, s, less);
      } else {
        assert IsLeast(m, s, less);
      }
    } else {
      assert IsLeast(x, s, less);
    }
  }

  /** The elements of `s`, each once, in ascending order. */
  function SortedKeys<K(==,!new)>(s: set<K>, less: (K, K) -> bool): (r: seq<K>)
    requires StrictTotalOn(less, s)
    ensures |r| == |s|
    ensures forall k :: k in r <==> k in s
    ensures StrictlyAscending(r, less)
    decreases s
  {
    if s == {} then []
    else
      LeastExists(s, less);
      var m :| IsLeast(m, s, less);
      var rest := SortedKeys(s - {m}, less);
      [m] + rest
  }

  /** Python's order on integers, for the keys of the fold tables. */
  function CodepointLess(a: Codepoint, b: Codepoint): bool {
    a < b
  }

  /** Python's order on tuples, for the keys of the unfold tables. */
  function TargetLess(a: Target, b: Target): bool {
    LexLess(a, b)
  }

  /** Python's order on tuples: the first differing element decides, and a proper prefix comes first. */
  function LexLess(a: seq<nat>, b: seq<nat>): bool
    decreases |a|
  {
    if a == [] then b != []
    else if b == [] then false
    else a[0] < b[0] || (a[0] == b[0] && LexLess(a[1..], b[1..]))
  }

  lemma CodepointLessIsStrictTotal(s: set<Codepoint>)
    ensures StrictTotalOn(CodepointLess, s)
  {
  }

  lemma {:induction false} LexLessIrreflexive(a: seq<nat>)
    ensures !LexLess(a, a)
    decreases |a|
  {
    if a != [] {
      LexLessIrreflexive(a[1..]);
    }
  }

  lemma {:induction false} LexLessTransitive(a: seq<nat>, b: seq<nat>, c: seq<nat>)
    requires LexLess(a, b) && LexLess(b, c)
    ensures LexLess(a, c)
    decreases |a|
  {
    if a != [] && b != [] && c != [] && a[0] == b[0] == c[0] {
      LexLessTransitive(a[1..], b[1..], c[1..]);
    }
  }

  lemma {:induction false} LexLessTotal(a: seq<nat>, b: seq<nat>)
    requires a != b
    ensures LexLess(a, b) || LexLess(b, a)
    decreases |a|
  {
    if a != [] && b != [] && a[0] == b[0] {
      assert a == [a[0]] + a[1..] && b == [b[0]] + b[1..];
      LexLessTotal(a[1..], b[1..]);
    }
  }

  /** The lexicographic order is a strict total order on any set of targets. */
  lemma TargetLessIsStrictTotal(s: set<Target>)
    ensures StrictTotalOn(TargetLess, s)
  {
    forall a | a in s
      ensures !TargetLess(a, a)
    {
      LexLessIrreflexive(a);
    }
    forall a, b, c | a in s && b in s && c in s && TargetLess(a, b) && TargetLess(b, c)
      ensures TargetLess(a, c)
    {
      LexLessTransitive(a, b, c);
    }
    forall a, b | a in s && b in s && a != b
      ensures TargetLess(a, b) || TargetLess(b, a)
    {
      LexLessTotal(a, b);
    }
  }

  /** The first element of an ascending sequence is the least of its elements. */
  lemma HeadIsLeast<K(!new)>(xs: seq<K>, less: (K, K) -> bool, s: set<K>)
    requires xs != [] && StrictlyAscending(xs, less)
    requires forall x :: x in xs <==> x in s
    ensures IsLeast(xs[0], s, less)
  {
    forall x | x in s && x != xs[0]
      ensures less(xs[0], x)
    {
      var k :| 0 <= k < |xs| && xs[k] == x;
    }
  }

  lemma LeastUnique<K>(a: K, b: K, s: set<K>, less: (K, K) -> bool)
    requires StrictTotalOn(less, s) && IsLeast(a, s, less) && IsLeast(b, s, less)
    ensures a == b
  {
  }

  lemma FirstIsMember<K>(ys: seq<K>)
    ensures ys == [] || ys[0] in ys
  {
  }

  /**
    Sorting fixes the order completely: two ascending sequences with the same
    elements are equal, so the printed order does not depend on how the keys
    were stored.
   */
  lemma {:induction false} AscendingUnique<K(!new)>(xs: seq<K>, ys: seq<K>, less: (K, K) -> bool, s: set<K>)
    requires StrictTotalOn(less, s)
    requires StrictlyAscending(xs, less) && StrictlyAscending(ys, less)
    requires forall x :: x in xs <==> x in s
    requires forall y :: y in ys <==> y in s
    ensures xs == ys
    decreases |xs|
  {
    if xs == [] {
      FirstIsMember(ys);
    } else {
      assert xs[0] in ys;
      HeadIsLeast(xs, less, s);
      HeadIsLeast(ys, less, s);
      LeastUnique(xs[0], ys[0], s, less);
      var rest := s - {xs[0]};
      forall x
        ensures x in xs[1..] <==> x in rest
      {
        if x in xs[1..] {
          var k :| 1 <= k < |xs| && xs[k] == x;
          assert less(xs[0], xs[k]);
        }
        if x in rest {
          var k :| 0 <= k < |xs| && xs[k] == x;
          assert xs[1..][k - 1] == x;
        }
      }
      forall y
        ensures y in ys[1..] <==> y in rest
      {
        if y in ys[1..] {
          var k :| 1 <= k < |ys| && ys[k] == y;
          assert less(ys[0], ys[k]);
        }
        if y in rest {
          var k :| 0 <= k < |ys| && ys[k] == y;
          assert ys[1..][k - 1] == y;
        }
      }
      AscendingUnique(xs[1..], ys[1..], less, rest);
      assert xs == [xs[0]] + xs[1..] && ys == [ys[0]] + ys[1..];
    }
  }
}

=== FILE: scenarios.dfy ===
/**
  Small worked inputs: the tables the generator builds from a handful of
  records, and the inputs it skips or rejects.
 */
module Scenarios {
  import opened Wrappers
  import opened Types
  import opened TableBuilder
  import opened LineParser
  import opened Driver
  import opened Hex

  /** Three lines of the data file, with the comments they carry there. */
  const DottedCapitalILines: seq<string> := [
    "0041; C; 0061;" + " # LATIN CAPITAL LETTER A",
    "0130; F; 0069 0307;" + DotAbove,
    "0130; T; 0069;" + DotAbove
  ]

  const DotAbove := " # LATIN CAPITAL LETTER I WITH DOT ABOVE"

  /** The records those lines parse to. */
  const DottedCapitalI: seq<Record> :=
    [Mapping(0x41, Common, [0x61]), Mapping(0x130, Full, [0x69, 0x307]), TurkicOverride(0x130)]

  /** The tables ingest builds from `DottedCapitalI`. */
  ghost predicate DottedCapitalIIngested(ing: Ingested) {
    var a: Target := [0x61];
    var b: Target := [0x69, 0x307];
    && ing.turkic == [0x130]
    && ing.fold.Keys == {0x41, 0x130} && ing.fold[0x41] == a && ing.fold[0x130] == b
    && ing.unfold[0].Keys == {a} && ing.unfold[0][a] == [0x41]
    && ing.unfold[1].Keys == {b} && ing.unfold[1][b] == [0x130]
    && ing.unfold[2] == map[]
  }

  lemma DottedCapitalIIngest()
    ensures DottedCapitalIIngested(Ingest(DottedCapitalI))
  {
    var recs := DottedCapitalI;
    var a: Target := [0x61];
    var b: Target := [0x69, 0x307];
    var i1 := AddRecord(NoTables, recs[0]);
    var i2 := AddRecord(i1, recs[1]);
    assert recs[..1][..0] == [];
    assert Ingest(recs[..1]) == i1;
    assert recs[..2][..1] == recs[..1];
    assert Ingest(recs[..2]) == i2;
    var ing := AddRecord(i2, recs[2]);
    assert Ingest(recs) == ing;
    assert i1.unfold[0].Keys == {a} && i1.unfold[1] == map[] && i1.unfold[2] == map[];
    assert i2.unfold[1].Keys == {b} && i2.unfold[1][b] == [0x130];
    assert ing.fold.Keys == {0x41, 0x130};
  }

  /** Migrating `0130` moves its fold entry and its two-code-point bucket, and nothing else. */
  lemma DottedCapitalIMigrate(ing: Ingested)
    requires DottedCapitalIIngested(ing)
    ensures Migrate(Start(ing), ing.turkic).Success?
    ensures var t := Migrate(Start(ing), ing.turkic).value;
            && t.fold == map[0x41 := [0x61]]
            && t.foldLocale == map[0x130 := [0x69, 0x307]]
            && t.unfold[0] == map[[0x61] := [0x41]] && t.unfold[1] == map[] && t.unfold[2] == map[]
            && t.unfoldLocale[0] == map[] && t.unfoldLocale[1] == map[[0x69, 0x307] := [0x130]]
  {
    var a: Target := [0x61];
    var b: Target := [0x69, 0x307];
    var st := Start(ing);
    var moved := MoveToLocale(st, 0x130);
    assert moved.Success?;
    assert Migrate(st, [0x130]) == Migrate(moved.value, []);
    var t := moved.value;
    assert t.fold.Keys == {0x41};
    assert t.foldLocale.Keys == {0x130};
    assert t.unfold[0] == ing.unfold[0];
    assert t.unfold[1].Keys == {};
    assert t.unfoldLocale[1].Keys == {b};
  }

  lemma CapitalALine()
    ensures ParseLine(DottedCapitalILines[0]) == Success(Some(DottedCapitalI[0]))
  {
    var f := Fields("0041", 'C', ["0061"]);
    assert Render(f) == "0041; C; 0061;";
    assert DottedCapitalILines[0] == Render(f) + " # LATIN CAPITAL LETTER A";
    assert DecodeField("0041") == Success(0x41) by { ValueOfFour("0041"); }
    assert DecodeFields(["0061"]) == Success([0x61]) by {
      assert DecodeField("0061") == Success(0x61) by { ValueOfFour("0061"); }
      DecodeFieldsEach(["0061"], [0x61]);
    }
    ParseMappingLine(DottedCapitalILines[0], f, 0x41, [0x61]);
  }

  lemma DottedCapitalIFullLine()
    ensures ParseLine(DottedCapitalILines[1]) == Success(Some(DottedCapitalI[1]))
  {
    var f := Fields("0130", 'F', ["0069", "0307"]);
    assert JoinSpaced(f.targets) == "0069 0307";
    assert Render(f) == "0130; F; 0069 0307;";
    assert DottedCapitalILines[1] == Render(f) + DotAbove;
    assert DecodeField("0130") == Success(0x130) by { ValueOfFour("0130"); }
    assert DecodeFields(["0069", "0307"]) == Success([0x69, 0x307]) by {
      assert DecodeField("0069") == Success(0x69) by { ValueOfFour("0069"); }
      assert DecodeField("0307") == Success(0x307) by { ValueOfFour("0307"); }
      DecodeFieldsEach(["0069", "0307"], [0x69, 0x307]);
    }
    ParseMappingLine(DottedCapitalILines[1], f, 0x130, [0x69, 0x307]);
  }

  lemma DottedCapitalITurkicLine()
    ensures ParseLine(DottedCapitalILines[2]) == Success(Some(DottedCapitalI[2]))
  {
    var f := Fields("0130", 'T', ["0069"]);
    assert Render(f) == "0130; T; 0069;";
    assert DottedCapitalILines[2] == Render(f) + DotAbove;
    assert DecodeField("0130") == Success(0x130) by { ValueOfFour("0130"); }
    ParseTurkicLine(DottedCapitalILines[2], f, 0x130);
  }

  /** The three lines parse to the three records, in order. */
  lemma DottedCapitalIParsed()
    ensures ParseAll(DottedCapitalILines) == Success(DottedCapitalI)
  {
    var lines, recs := DottedCapitalILines, DottedCapitalI;
    forall i | 0 <= i < |lines|
      ensures ParseLine(lines[i]) == Success(Some(recs[i]))
    {
      if i == 0 {
        CapitalALine();
      } else if i == 1 {
        DottedCapitalIFullLine();
      } else {
        DottedCapitalITurkicLine();
      }
    }
    ParseEachRecords(ParseLine, lines, recs);
  }

  /**
    The dotted capital I: `0041` keeps its generic entries, while `0130`, which
    has a Turkic record, has its fold entry and its bucket only in the locale
    tables.
   */
  lemma DottedCapitalITables()
    ensures Build(DottedCapitalILines).Success?
    ensures var t := Build(DottedCapitalILines).value;
            && t.fold == map[0x41 := [0x61]]
            && t.foldLocale == map[0x130 := [0x69, 0x307]]
            && t.unfold[0] == map[[0x61] := [0x41]] && t.unfold[1] == map[] && t.unfold[2] == map[]
            && t.unfoldLocale[0] == map[] && t.unfoldLocale[1] == map[[0x69, 0x307] := [0x130]]
  {
    DottedCapitalIParsed();
    assert Build(DottedCapitalILines) == BuildTables(DottedCapitalI);
    DottedCapitalIIngest();
    DottedCapitalIMigrate(Ingest(DottedCapitalI));
  }

  /** `int(field, 16)` skips a leading `0X`, so `0X41` reads as `0041` does. */
  lemma PrefixedOriginRead()
    ensures ParseLine("0X41; C; 0061;") == Success(Some(Mapping(0x41, Common, [0x61])))
  {
    var f := Fields("0X41", 'C', ["0061"]);
    assert Render(f) == "0X41; C; 0061;";
    assert DecodeField("0X41") == Success(0x41) by {
      PrefixedLiteral("41");
      ValueOfTwo("41");
    }
    assert DecodeFields(["0061"]) == Success([0x61]) by {
      assert DecodeField("0061") == Success(0x61) by { ValueOfFour("0061"); }
      DecodeFieldsEach(["0061"], [0x61]);
    }
    ParseMappingLine("0X41; C; 0061;", f, 0x41, [0x61]);
  }

  /** A Turkic record whose origin has no C/F record anywhere aborts the run. */
  lemma OrphanTurkicAborts(recs: seq<Record>, o: Codepoint)
    requires o in TurkicOrigins(recs)
    requires forall i :: 0 <= i < |recs| ==> !MapsFrom(recs[i], o)
    ensures BuildTables(recs).Failure?
  {
    IngestFold(recs, o);
    IngestQueue(recs);
    MigrateAfterIngest(recs);
    var ing := Ingest(recs);
    var k :| 0 <= k < |ing.turkic| && ing.turkic[k] == o;
  }

  /** A simple-folding line, which the generator does not use, leaves the parse of the file unchanged. */
  lemma SimpleLineSkipped(before: seq<string>, after: seq<string>)
    ensures Recognise("0049; S; 0069;") == None
    ensures ParseAll(before + ["0049; S; 0069;"] + after) == ParseAll(before + after)
  {
    var line := "0049; S; 0069;";
    assert "0049" <= line;
    RunLengthOfField("0049", line);
    SimpleStatusRejected(line);
    SkippedLineHasNoEffect(before, line, after);
  }
}

=== FILE: table_builder.dfy ===
/**
  Building the fold and unfold tables from the parsed records.

  Ingest reads the records in file order: a C or F record overwrites the
  fold entry of its origin and appends the origin to the unfold bucket of its
  target, in the slot for the target's length; a T record only queues its
  origin. Migration then moves, for each queued origin in order, its fold
  entry to the locale fold table and the WHOLE unfold bucket of its target to
  the locale unfold table, aborting where the generator raises.
 */
module TableBuilder {
  import opened Wrappers
  import opened Types

  type FoldMap = map<Codepoint, Target>
  type UnfoldMap = map<Target, seq<Codepoint>>

  /** `unfold[i]` holds the targets of length i + 1. */
  type UnfoldSlots = s: seq<UnfoldMap> | |s| == 3 witness [map[], map[], map[]]

  /** The locale unfold table has slots for lengths 1 and 2 only. */
  type LocaleSlots = s: seq<UnfoldMap> | |s| == 2 witness [map[], map[]]

  /** The state after ingest: forward table, per-length reverse tables, queued Turkic origins. */
  datatype Ingested = Ingested(fold: FoldMap, unfold: UnfoldSlots, turkic: seq<Codepoint>)

  /** The six tables the generator prints. */
  datatype Tables = Tables(fold: FoldMap, foldLocale: FoldMap, unfold: UnfoldSlots, unfoldLocale: LocaleSlots)

  /** The slot of the unfold table a target belongs in. */
  function Slot(t: Target): nat {
    |t| - 1
  }

  function Bucket(m: UnfoldMap, t: Target): seq<Codepoint> {
    if t in m then m[t] else []
  }

  const NoTables := Ingested(map[], [map[], map[], map[]], [])

  /** Adds one record to the tables being built. */
  function AddRecord(st: Ingested, rec: Record): (r: Ingested)
    ensures rec.TurkicOverride? ==>
              r.fold == st.fold && r.unfold == st.unfold && r.turkic == st.turkic + [rec.origin]
    ensures rec.Mapping? ==>
              && r.turkic == st.turkic
              && r.fold.Keys == st.fold.Keys + {rec.origin}
              && r.fold[rec.origin] == rec.target
              && (forall o :: o in st.fold && o != rec.origin ==> r.fold[o] == st.fold[o])
              && rec.target in r.unfold[Slot(rec.target)]
              && r.unfold[Slot(rec.target)][rec.target] == Bucket(st.unfold[Slot(rec.target)], rec.target) + [rec.origin]
              && (forall i :: 0 <= i < 3 ==>
                    r.unfold[i].Keys == st.unfold[i].Keys + (if i == Slot(rec.target) then {rec.target} else {}))
              && (forall i, k :: 0 <= i < 3 && k in st.unfold[i] && (i != Slot(rec.target) || k != rec.target) ==>
                    r.unfold[i][k] == st.unfold[i][k])
  {
    match rec
    case TurkicOverride(o) => st.(turkic := st.turkic + [o])
    case Mapping(o, _, t) =>
      var i := Slot(t);
      var bucket: UnfoldMap := st.unfold[i][t := Bucket(st.unfold[i], t) + [o]];
      st.(fold := st.fold[o := t], unfold := st.unfold[i := bucket])
  }

  /** The ingest pass over the records in file order. */
  function Ingest(recs: seq<Record>): Ingested
    decreases |recs|
  {
    if recs == [] then NoTables
    else AddRecord(Ingest(recs[..|recs| - 1]), recs[|recs| - 1])
  }

  // Reference definitions of what ingest should produce, stated over the records alone.

  predicate MapsFrom(rec: Record, o: Codepoint) {
    rec.Mapping? && rec.origin == o
  }

  /** `recs[i]` is the last C/F record for origin `o`. */
  predicate IsLastMapping(recs: seq<Record>, i: int, o: Codepoint) {
    && 0 <= i < |recs|
    && MapsFrom(recs[i], o)
    && forall j :: i < j < |recs| ==> !MapsFrom(recs[j], o)
  }

  /** The origins of the C/F records that fold to `t`, in file order. */
  function OriginsOf(recs: seq<Record>, t: Target): seq<Codepoint>
    decreases |recs|
  {
    if recs == [] then []
    else
      var rec := recs[|recs| - 1];
      OriginsOf(recs[..|recs| - 1], t) + (if rec.Mapping? && rec.target == t then [rec.origin] else [])
  }

  /** The origins of the T records, in file order. */
  function TurkicOrigins(recs: seq<Record>): seq<Codepoint>
    decreases |recs|
  {
    if recs == [] then []
    else
      var rec := recs[|recs| - 1];
      TurkicOrigins(recs[..|recs| - 1]) + (if rec.TurkicOverride? then [rec.origin] else [])
  }

  /**
    The fold table after ingest: an origin has an entry exactly when some C/F
    record names it, and the entry is the target of the last such record.
   */
  lemma {:induction false} IngestFold(recs: seq<Record>, o: Codepoint)
    ensures o in Ingest(recs).fold <==> exists i :: 0 <= i < |recs| && MapsFrom(recs[i], o)
    ensures o in Ingest(recs).fold ==>
              exists i :: IsLastMapping(recs, i, o) && Ingest(recs).fold[o] == recs[i].target
    decreases |recs|
  {
    if recs != [] {
      var n := |recs| - 1;
      var pre := recs[..n];
      IngestFold(pre, o);
      assert forall i :: 0 <= i < n ==> pre[i] == recs[i];
      if MapsFrom(recs[n], o) {
        assert IsLastMapping(recs, n, o);
      } else if o in Ingest(pre).fold {
        var i :| IsLastMapping(pre, i, o) && Ingest(pre).fold[o] == pre[i].target;
        assert IsLastMapping(recs, i, o);
      }
    }
  }

  /**
    The unfold tables after ingest: a target has a bucket, in the slot for its
    length, exactly when some C/F record folds to it, and the bucket lists the
    origins of those records in file order.
   */
  lemma {:induction false} IngestUnfold(recs: seq<Record>, t: Target)
    ensures t in Ingest(recs).unfold[Slot(t)] <==> OriginsOf(recs, t) != []
    ensures t in Ingest(recs).unfold[Slot(t)] ==> Ingest(recs).unfold[Slot(t)][t] == OriginsOf(recs, t)
    decreases |recs|
  {
    if recs != [] {
      var pre := recs[..|recs| - 1];
      var rec := recs[|recs| - 1];
      IngestUnfold(pre, t);
      if rec.Mapping? && rec.target == t {
        assert OriginsOf(recs, t) == OriginsOf(pre, t) + [rec.origin];
      } else {
        assert OriginsOf(recs, t) == OriginsOf(pre, t);
      }
    }
  }

  /** No slot of the unfold table holds a key of another length. */
  lemma {:induction false} IngestSlotsAligned(recs: seq<Record>)
    ensures forall i, k :: 0 <= i < 3 && k in Ingest(recs).unfold[i] ==> |k| == i + 1
    decreases |recs|
  {
    if recs != [] {
      IngestSlotsAligned(recs[..|recs| - 1]);
    }
  }

  /** The queue of Turkic origins after ingest holds the T records' origins in file order. */
  lemma {:induction false} IngestQueue(recs: seq<Record>)
    ensures Ingest(recs).turkic == TurkicOrigins(recs)
    decreases |recs|
  {
    if recs != [] {
      IngestQueue(recs[..|recs| - 1]);
    }
  }

  /** Every fold entry has its origin in the unfold bucket of its target. */
  ghost predicate Consistent(fold: FoldMap, unfold: UnfoldSlots) {
    forall o :: o in fold ==> fold[o] in unfold[Slot(fold[o])] && o in unfold[Slot(fold[o])][fold[o]]
  }

  /** After ingest, for every C/F origin `o`, `o` is in `unfold[|fold[o]| - 1][fold[o]]`. */
  lemma {:induction false} IngestConsistent(recs: seq<Record>)
    ensures Consistent(Ingest(recs).fold, Ingest(recs).unfold)
    decreases |recs|
  {
    if recs != [] {
      var pre := Ingest(recs[..|recs| - 1]);
      IngestConsistent(recs[..|recs| - 1]);
      var post := Ingest(recs);
      forall o | o in post.fold
        ensures post.fold[o] in post.unfold[Slot(post.fold[o])] && o in post.unfold[Slot(post.fold[o])][post.fold[o]]
      {
        var rec := recs[|recs| - 1];
        if rec.Mapping? && rec.origin != o {
          var t := pre.fold[o];
          assert o in pre.unfold[Slot(t)][t];
          if Slot(t) == Slot(rec.target) && t == rec.target {
            assert post.unfold[Slot(t)][t] == pre.unfold[Slot(t)][t] + [rec.origin];
          }
        }
      }
    }
  }

  /** The tables before migration: nothing is locale-specific yet. */
  function Start(ing: Ingested): Tables {
    Tables(ing.fold, map[], ing.unfold, [map[], map[]])
  }

  /** `a` and `b` share no key and together hold exactly the entries of `whole`. */
  ghost predicate Splits<K, V>(a: map<K, V>, b: map<K, V>, whole: map<K, V>) {
    a.Keys !! b.Keys && a + b == whole
  }

  /** Moving the entry for `k` from `a` to `b` keeps the two tables' union and disjointness. */
  lemma MoveEntry<K, V>(a: map<K, V>, b: map<K, V>, k: K)
    requires k in a
    ensures (a - {k}).Keys == a.Keys - {k} && b[k := a[k]].Keys == b.Keys + {k}
    ensures a.Keys !! b.Keys ==> Splits(a - {k}, b[k := a[k]], a + b)
  {
    if a.Keys !! b.Keys {
      assert (a - {k}) + b[k := a[k]] == a + b;
    }
  }

  /**
    Moves one queued Turkic origin and the whole unfold bucket of its target to
    the locale tables. The checks come in the order the generator raises:
    the fold lookup, then the unfold lookup, then the locale slot.
   */
  function MoveToLocale(t: Tables, o: Codepoint): (r: Result<Tables, Error>)
    ensures r.Failure? <==>
              || o !in t.fold
              || t.fold[o] !in t.unfold[Slot(t.fold[o])]
              || Slot(t.fold[o]) >= 2
    ensures o !in t.fold ==> r == Failure(MissingFold(o))
    ensures o in t.fold && t.fold[o] !in t.unfold[Slot(t.fold[o])] ==> r == Failure(BucketGone(o))
    ensures o in t.fold && t.fold[o] in t.unfold[Slot(t.fold[o])] && Slot(t.fold[o]) >= 2 ==>
              r == Failure(NoLocaleSlot(o))
    ensures r.Success? ==>
              && r.value.fold.Keys == t.fold.Keys - {o}
              && (forall x :: x in r.value.fold ==> r.value.fold[x] == t.fold[x])
              && r.value.foldLocale.Keys == t.foldLocale.Keys + {o}
              && (t.fold.Keys !! t.foldLocale.Keys ==> Splits(r.value.fold, r.value.foldLocale, t.fold + t.foldLocale))
              && r.value.unfold[2] == t.unfold[2]
              && forall i :: 0 <= i < 2 ==>
                   && r.value.unfold[i].Keys == t.unfold[i].Keys - (if i == Slot(t.fold[o]) then {t.fold[o]} else {})
                   && r.value.unfoldLocale[i].Keys == t.unfoldLocale[i].Keys + (if i == Slot(t.fold[o]) then {t.fold[o]} else {})
                   && (t.unfold[i].Keys !! t.unfoldLocale[i].Keys ==>
                         Splits(r.value.unfold[i], r.value.unfoldLocale[i], t.unfold[i] + t.unfoldLocale[i]))
  {
    if o !in t.fold then Failure(MissingFold(o))
    else
      var key := t.fold[o];
      var i := Slot(key);
      if key !in t.unfold[i] then Failure(BucketGone(o))
      else if i >= |t.unfoldLocale| then Failure(NoLocaleSlot(o))
      else
        var generic: UnfoldMap := t.unfold[i] - {key};
        var locale: UnfoldMap := t.unfoldLocale[i][key := t.unfold[i][key]];
        var r := Tables(t.fold - {o}, t.foldLocale[o := key], t.unfold[i := generic], t.unfoldLocale[i := locale]);
        MoveEntry(t.fold, t.foldLocale, o);
        MoveEntry(t.unfold[i], t.unfoldLocale[i], key);
        Success(r)
  }

  /** The migration pass over the queued Turkic origins, in queue order. */
  function Migrate(t: Tables, pending: seq<Codepoint>): Result<Tables, Error>
    decreases |pending|
  {
    if pending == [] then Success(t)
    else
      match MoveToLocale(t, pending[0])
      case Failure(e) => Failure(e)
      case Success(t') => Migrate(t', pending[1..])
  }

  /**
    What migration needs of the queue: every queued origin still has a fold
    entry whose target has at most two code points and an unfold bucket, and
    no two queued origins have the same target (which also rules out an
    origin queued twice).
   */
  ghost predicate Migratable(t: Tables, pending: seq<Codepoint>) {
    && (forall i :: 0 <= i < |pending| ==>
          && pending[i] in t.fold
          && Slot(t.fold[pending[i]]) < 2
          && t.fold[pending[i]] in t.unfold[Slot(t.fold[pending[i]])])
    && (forall i, j :: 0 <= i < j < |pending| ==> t.fold[pending[i]] != t.fold[pending[j]])
  }

  /** After a successful first move, the rest of the queue is migratable exactly when the whole was. */
  lemma MigratableStep(t: Tables, pending: seq<Codepoint>)
    requires pending != [] && MoveToLocale(t, pending[0]).Success?
    ensures Migratable(t, pending) <==> Migratable(MoveToLocale(t, pending[0]).value, pending[1..])
  {
    var t' := MoveToLocale(t, pending[0]).value;
    var key := t.fold[pending[0]];
    var rest := pending[1..];
    if Migratable(t, pending) {
      forall i | 0 <= i < |rest|
        ensures rest[i] in t'.fold && t'.fold[rest[i]] == t.fold[rest[i]]
        ensures t.fold[rest[i]] in t'.unfold[Slot(t.fold[rest[i]])]
      {
        assert rest[i] == pending[i + 1];
        assert key != t.fold[pending[i + 1]];
      }
      forall i, j | 0 <= i < j < |rest|
        ensures t'.fold[rest[i]] != t'.fold[rest[j]]
      {
        assert rest[i] == pending[i + 1] && rest[j] == pending[j + 1];
      }
    }
    if Migratable(t', rest) {
      forall i | 0 < i < |pending|
        ensures pending[i] in t.fold && t.fold[pending[i]] == t'.fold[pending[i]]
        ensures t.fold[pending[i]] != key
      {
        assert pending[i] == rest[i - 1];
        var x := t'.fold[pending[i]];
        assert x in t'.unfold[Slot(x)];
        assert key !in t'.unfold[Slot(key)];
      }
      forall i, j | 0 <= i < j < |pending|
        ensures t.fold[pending[i]] != t.fold[pending[j]]
      {
        if i > 0 {
          assert pending[i] == rest[i - 1] && pending[j] == rest[j - 1];
        }
      }
    }
  }

  /** Migration runs to completion exactly when the queue is migratable; otherwise it aborts. */
  lemma {:induction false} MigrateSucceedsIff(t: Tables, pending: seq<Codepoint>)
    ensures Migrate(t, pending).Success? <==> Migratable(t, pending)
    decreases |pending|
  {
    if pending != [] {
      match MoveToLocale(t, pending[0])
      case Failure(e) =>
        assert !Migratable(t, pending);
      case Success(t') =>
        MigrateSucceedsIff(t', pending[1..]);
        MigratableStep(t, pending);
    }
  }

  function Elements(pending: seq<Codepoint>): set<Codepoint> {
    set o | o in pending
  }

  /**
    What a completed migration did to the fold tables: every queued origin left
    the fold table for the locale fold table with its target unchanged, and no
    other entry moved. Together they hold exactly the entries held before.
   */
  lemma {:induction false} MigrateMovesFolds(t: Tables, pending: seq<Codepoint>)
    requires Migrate(t, pending).Success?
    ensures Migrate(t, pending).value.fold.Keys == t.fold.Keys - Elements(pending)
    ensures Migrate(t, pending).value.foldLocale.Keys == t.foldLocale.Keys + Elements(pending)
    ensures t.fold.Keys !! t.foldLocale.Keys ==>
              Splits(Migrate(t, pending).value.fold, Migrate(t, pending).value.foldLocale, t.fold + t.foldLocale)
    decreases |pending|
  {
    if pending != [] {
      var t' := MoveToLocale(t, pending[0]).value;
      MigrateMovesFolds(t', pending[1..]);
      assert Elements(pending) == {pending[0]} + Elements(pending[1..]);
    }
  }

  /**
    What a completed migration did to the unfold tables: whole buckets moved
    from the generic to the locale table of their slot, so each slot's buckets
    as a whole are the same as before, split without overlap; the
    three-code-point slot is untouched.
   */
  lemma {:induction false} MigrateMovesBuckets(t: Tables, pending: seq<Codepoint>, i: nat)
    requires Migrate(t, pending).Success?
    requires i < 2 && t.unfold[i].Keys !! t.unfoldLocale[i].Keys
    ensures Migrate(t, pending).value.unfold[2] == t.unfold[2]
    ensures Splits(Migrate(t, pending).value.unfold[i], Migrate(t, pending).value.unfoldLocale[i],
                   t.unfold[i] + t.unfoldLocale[i])
    decreases |pending|
  {
    if pending != [] {
      var t' := MoveToLocale(t, pending[0]).value;
      MigrateMovesBuckets(t', pending[1..], i);
    }
  }

  /** The targets, of length `i + 1`, of the queued origins that have a fold entry. */
  function TargetsInSlot(fold: FoldMap, pending: seq<Codepoint>, i: nat): set<Target> {
    set o | o in pending && o in fold && Slot(fold[o]) == i :: fold[o]
  }

  /** Dropping a key the queue does not name leaves the queue's targets unchanged. */
  lemma TargetsInSlotAgree(fold: FoldMap, fold': FoldMap, pending: seq<Codepoint>, i: nat)
    requires forall o :: o in pending ==> o in fold' && o in fold && fold'[o] == fold[o]
    ensures TargetsInSlot(fold', pending, i) == TargetsInSlot(fold, pending, i)
  {
    forall k | k in TargetsInSlot(fold, pending, i)
      ensures k in TargetsInSlot(fold', pending, i)
    {
      var o :| o in pending && o in fold && Slot(fold[o]) == i && k == fold[o];
      assert fold'[o] == k;
    }
  }

  /** The queue's targets are those of its head and of its tail. */
  lemma TargetsInSlotCons(fold: FoldMap, pending: seq<Codepoint>, i: nat)
    requires pending != [] && pending[0] in fold
    ensures TargetsInSlot(fold, pending, i) ==
            TargetsInSlot(fold, pending[1..], i) + (if Slot(fold[pending[0]]) == i then {fold[pending[0]]} else {})
  {
    var rest := pending[1..];
    forall k | k in TargetsInSlot(fold, pending, i)
      ensures k in TargetsInSlot(fold, rest, i) || (Slot(fold[pending[0]]) == i && k == fold[pending[0]])
    {
      var o :| o in pending && o in fold && Slot(fold[o]) == i && k == fold[o];
      if o != pending[0] {
        assert o in rest;
      }
    }
    forall k | k in TargetsInSlot(fold, rest, i)
      ensures k in TargetsInSlot(fold, pending, i)
    {
      var o :| o in rest && o in fold && Slot(fold[o]) == i && k == fold[o];
      assert o in pending;
    }
  }

  /** A completed migration only moved origins that had a fold entry, and left the others' targets alone. */
  lemma {:induction false} MigrateNeedsFolds(t: Tables, pending: seq<Codepoint>)
    requires Migrate(t, pending).Success?
    ensures forall x :: x in pending ==> x in t.fold
    decreases |pending|
  {
    if pending != [] {
      var t' := MoveToLocale(t, pending[0]).value;
      MigrateNeedsFolds(t', pending[1..]);
      forall x | x in pending
        ensures x in t.fold
      {
        if x != pending[0] {
          assert x in pending[1..];
        }
      }
    }
  }

  /** After the first move, the rest of the queue sees the same targets in slot `i`. */
  lemma TargetsAfterMove(t: Tables, pending: seq<Codepoint>, i: nat)
    requires pending != [] && MoveToLocale(t, pending[0]).Success?
    requires Migrate(MoveToLocale(t, pending[0]).value, pending[1..]).Success?
    ensures TargetsInSlot(t.fold, pending, i) ==
            TargetsInSlot(MoveToLocale(t, pending[0]).value.fold, pending[1..], i)
            + (if Slot(t.fold[pending[0]]) == i then {t.fold[pending[0]]} else {})
  {
    var t' := MoveToLocale(t, pending[0]).value;
    var rest := pending[1..];
    MigrateNeedsFolds(t', rest);
    TargetsInSlotAgree(t.fold, t'.fold, rest, i);
    TargetsInSlotCons(t.fold, pending, i);
  }

  /** The buckets that moved into the locale table are exactly those of the queued origins' targets. */
  lemma {:induction false} MigrateLocaleKeys(t: Tables, pending: seq<Codepoint>, i: nat)
    requires Migrate(t, pending).Success? && i < 2
    ensures Migrate(t, pending).value.unfoldLocale[i].Keys == t.unfoldLocale[i].Keys + TargetsInSlot(t.fold, pending, i)
    decreases |pending|
  {
    if pending != [] {
      var t' := MoveToLocale(t, pending[0]).value;
      assert Migrate(t, pending) == Migrate(t', pending[1..]);
      MigrateLocaleKeys(t', pending[1..], i);
      TargetsAfterMove(t, pending, i);
    }
  }

  /** The buckets that left the generic table are exactly those of the queued origins' targets. */
  lemma {:induction false} MigrateGenericKeys(t: Tables, pending: seq<Codepoint>, i: nat)
    requires Migrate(t, pending).Success? && i < 2
    ensures Migrate(t, pending).value.unfold[i].Keys == t.unfold[i].Keys - TargetsInSlot(t.fold, pending, i)
    decreases |pending|
  {
    if pending != [] {
      var t' := MoveToLocale(t, pending[0]).value;
      assert Migrate(t, pending) == Migrate(t', pending[1..]);
      MigrateGenericKeys(t', pending[1..], i);
      TargetsAfterMove(t, pending, i);
    }
  }

  /** The records `0041; C; 0061`, `0042; C; 0061`, `0041; T; ...` of the example below. */
  const SharedTargetRecords: seq<Record> :=
    [Mapping(0x41, Common, [0x61]), Mapping(0x42, Common, [0x61]), TurkicOverride(0x41)]

  /** Two C/F origins share the target `[0x61]`; the first is also queued as Turkic. */
  ghost predicate SharesBucket(ing: Ingested) {
    var a: Target := [0x61];
    && ing.turkic == [0x41]
    && ing.fold.Keys == {0x41, 0x42} && ing.fold[0x41] == a && ing.fold[0x42] == a
    && ing.unfold[0].Keys == {a} && ing.unfold[0][a] == [0x41, 0x42]
  }

  lemma SharedTargetIngest()
    ensures SharesBucket(Ingest(SharedTargetRecords))
  {
    var recs := SharedTargetRecords;
    var a: Target := [0x61];
    var i1 := AddRecord(NoTables, recs[0]);
    var i2 := AddRecord(i1, recs[1]);
    assert recs[..1][..0] == [];
    assert Ingest(recs[..1]) == i1;
    assert recs[..2][..1] == recs[..1];
    assert Ingest(recs[..2]) == i2;
    var ing := AddRecord(i2, recs[2]);
    assert Ingest(recs) == ing;
    assert i1.unfold[0].Keys == {a} && i1.unfold[0][a] == [0x41];
    assert i2.unfold[0].Keys == {a} && i2.unfold[0][a] == [0x41, 0x42];
    assert ing.fold.Keys == {0x41, 0x42};
  }

  /** Migrating the Turkic origin moves the shared bucket, taking the other origin's entry with it. */
  lemma SharedBucketMigrate(ing: Ingested)
    requires SharesBucket(ing)
    ensures Migrate(Start(ing), ing.turkic).Success?
    ensures var r := Migrate(Start(ing), ing.turkic).value;
            && r.fold.Keys == {0x42} && r.fold[0x42] == [0x61]
            && [0x61] !in r.unfold[0]
            && [0x61] in r.unfoldLocale[0] && r.unfoldLocale[0][[0x61]] == [0x41, 0x42]
  {
    var st := Start(ing);
    var moved := MoveToLocale(st, 0x41);
    assert moved.Success?;
    assert Migrate(st, [0x41]) == Migrate(moved.value, []);
  }

  /**
    A migrated bucket takes every origin that shares the Turkic origin's target
    with it, so a C/F origin that is not Turkic can keep its fold entry while its
    unfold bucket moves to the locale table.
   */
  lemma SharedBucketMovesWhole()
    ensures var ing := Ingest(SharedTargetRecords);
            && ing.turkic == [0x41]
            && Migrate(Start(ing), ing.turkic).Success?
            && var r := Migrate(Start(ing), ing.turkic).value;
               && r.fold.Keys == {0x42} && r.fold[0x42] == [0x61]
               && [0x61] !in r.unfold[0]
               && [0x61] in r.unfoldLocale[0] && r.unfoldLocale[0][[0x61]] == [0x41, 0x42]
  {
    SharedTargetIngest();
    SharedBucketMigrate(Ingest(SharedTargetRecords));
  }

  /** Ingest followed by migration of the queued Turkic origins. */
  function BuildTables(recs: seq<Record>): Result<Tables, Error> {
    var ing := Ingest(recs);
    Migrate(Start(ing), ing.turkic)
  }

  /**
    After ingest, migration runs to completion exactly when every queued
    Turkic origin has a C/F entry, which holds the target of its last C/F
    record, of at most two code points, and no two queued origins fold to the
    same target. It aborts on an orphan Turkic origin, a three-code-point
    target, a shared target, or an origin queued twice.
   */
  lemma MigrateAfterIngest(recs: seq<Record>)
    ensures var ing := Ingest(recs);
      BuildTables(recs).Success? <==>
        && (forall i :: 0 <= i < |ing.turkic| ==> ing.turkic[i] in ing.fold && |ing.fold[ing.turkic[i]]| <= 2)
        && (forall i, j :: 0 <= i < j < |ing.turkic| ==> ing.fold[ing.turkic[i]] != ing.fold[ing.turkic[j]])
  {
    var ing := Ingest(recs);
    IngestConsistent(recs);
    MigrateSucceedsIff(Start(ing), ing.turkic);
  }

  /** Splitting a table loses and duplicates nothing: the two parts' sizes add up to the whole's. */
  lemma SplitSize<K, V>(a: map<K, V>, b: map<K, V>, whole: map<K, V>)
    requires Splits(a, b, whole)
    ensures |a| + |b| == |whole|
  {
    assert whole.Keys == a.Keys + b.Keys;
    assert |a.Keys + b.Keys| == |a.Keys| + |b.Keys|;
  }

  /** After a completed migration the two fold tables together have one entry per C/F origin. */
  lemma MigratedFoldCount(recs: seq<Record>)
    requires BuildTables(recs).Success?
    ensures |BuildTables(recs).value.fold| + |BuildTables(recs).value.foldLocale| == |Ingest(recs).fold|
  {
    var ing := Ingest(recs);
    var t := BuildTables(recs).value;
    MigratedFoldsFrom(ing);
    SplitSize(t.fold, t.foldLocale, ing.fold);
  }

  /** Where the fold entries end up after a completed migration from `ing`. */
  lemma MigratedFoldsFrom(ing: Ingested)
    requires Migrate(Start(ing), ing.turkic).Success?
    ensures var t := Migrate(Start(ing), ing.turkic).value;
            && Splits(t.fold, t.foldLocale, ing.fold)
            && t.foldLocale.Keys == Elements(ing.turkic)
  {
    MigrateMovesFolds(Start(ing), ing.turkic);
  }

  /**
    After a completed migration every origin with a C/F record sits in exactly one
    of the fold and locale fold tables, with the target of its last C/F
    record; the locale fold table holds exactly the Turkic origins.
   */
  lemma MigratedFoldTables(recs: seq<Record>, o: Codepoint)
    requires BuildTables(recs).Success?
    ensures var t := BuildTables(recs).value;
            && (o in t.fold || o in t.foldLocale <==> exists i :: 0 <= i < |recs| && MapsFrom(recs[i], o))
            && !(o in t.fold && o in t.foldLocale)
            && (o in t.foldLocale <==> o in TurkicOrigins(recs))
            && (o in t.fold ==> exists i :: IsLastMapping(recs, i, o) && t.fold[o] == recs[i].target)
            && (o in t.foldLocale ==> exists i :: IsLastMapping(recs, i, o) && t.foldLocale[o] == recs[i].target)
  {
    var ing := Ingest(recs);
    var t := BuildTables(recs).value;
    MigratedFoldsFrom(ing);
    assert o in Elements(ing.turkic) <==> o in ing.turkic;
    IngestFold(recs, o);
    IngestQueue(recs);
    assert o in t.fold || o in t.foldLocale <==> o in ing.fold;
    if o in t.fold {
      assert t.fold[o] == ing.fold[o];
    }
    if o in t.foldLocale {
      assert t.foldLocale[o] == ing.fold[o];
    }
  }

  /** The unfold table of slot `i` after migration: generic and locale entries together. */
  function AllUnfold(t: Tables, i: nat): UnfoldMap
    requires i < 3
  {
    if i < 2 then t.unfold[i] + t.unfoldLocale[i] else t.unfold[2]
  }

  /**
    After a completed migration every target of a C/F record has its bucket in
    exactly one of the generic and locale unfold tables of its slot, and the
    bucket lists the origins of those records in file order; no other key
    is present.
   */
  lemma MigratedUnfoldTables(recs: seq<Record>, k: Target)
    requires BuildTables(recs).Success?
    ensures var t := BuildTables(recs).value;
            && (k in AllUnfold(t, Slot(k)) <==> OriginsOf(recs, k) != [])
            && (k in AllUnfold(t, Slot(k)) ==> AllUnfold(t, Slot(k))[k] == OriginsOf(recs, k))
            && (Slot(k) < 2 ==> !(k in t.unfold[Slot(k)] && k in t.unfoldLocale[Slot(k)]))
  {
    var ing := Ingest(recs);
    IngestUnfold(recs, k);
    MigratedSlotsWhole(ing, Slot(k));
  }

  /** A completed migration from `ing` splits each slot's buckets between the generic and locale tables. */
  lemma MigratedSlotsWhole(ing: Ingested, i: nat)
    requires Migrate(Start(ing), ing.turkic).Success? && i < 3
    ensures var t := Migrate(Start(ing), ing.turkic).value;
            && AllUnfold(t, i) == ing.unfold[i]
            && (i < 2 ==> t.unfold[i].Keys !! t.unfoldLocale[i].Keys)
  {
    var st := Start(ing);
    if i < 2 {
      MigrateMovesBuckets(st, ing.turkic, i);
      assert st.unfold[i] + st.unfoldLocale[i] == ing.unfold[i];
    } else {
      MigrateMovesBuckets(st, ing.turkic, 0);
    }
  }

  /** A completed migration from consistent tables keeps every fold entry's origin in its target's bucket. */
  lemma MigratedConsistentFrom(ing: Ingested, o: Codepoint)
    requires Migrate(Start(ing), ing.turkic).Success? && Consistent(ing.fold, ing.unfold)
    ensures var t := Migrate(Start(ing), ing.turkic).value;
            var whole := t.fold + t.foldLocale;
            o in whole ==> whole[o] in AllUnfold(t, Slot(whole[o])) && o in AllUnfold(t, Slot(whole[o]))[whole[o]]
  {
    var t := Migrate(Start(ing), ing.turkic).value;
    MigratedFoldsFrom(ing);
    var whole := t.fold + t.foldLocale;
    assert whole == ing.fold;
    if o in whole {
      var k := ing.fold[o];
      assert |k| <= 3;
      MigratedSlotsWhole(ing, Slot(k));
    }
  }

  /**
    After a completed migration every fold entry, generic or locale, has its origin
    in the bucket of its target, which is in the generic or the locale unfold
    table of its slot. (The bucket need not be in the table of the same kind:
    a bucket moves whole when any of its origins is Turkic.)
   */
  lemma MigratedConsistent(recs: seq<Record>, o: Codepoint)
    requires BuildTables(recs).Success?
    ensures var t := BuildTables(recs).value;
            var whole := t.fold + t.foldLocale;
            o in whole ==> whole[o] in AllUnfold(t, Slot(whole[o])) && o in AllUnfold(t, Slot(whole[o]))[whole[o]]
  {
    var ing := Ingest(recs);
    IngestConsistent(recs);
    MigratedConsistentFrom(ing, o);
  }

}

=== FILE: types.dfy ===
/** The values that flow between the stages of the case-folding table generator. */
module Types {

  /** A code point read from a field of four to six hexadecimal digits, so below 16^6. */
  type Codepoint = c: nat | c < 0x100_0000

  /** The code points a character folds to: one to three of them, in field order. */
  type Target = t: seq<Codepoint> | 1 <= |t| <= 3 witness [0]

  /** The status letters of a mapping line that is folded unconditionally. */
  datatype Status = Common | Full

  /** What one recognised line of the data file contributes. */
  datatype Record =
    | Mapping(origin: Codepoint, status: Status, target: Target)   // status C or F
    | TurkicOverride(origin: Codepoint)                             // status T

  /** The ways a run aborts; each is an uncaught exception in the generator. */
  datatype Error =
    | InvalidHex(field: string)     // int(field, 16) raises on a letter G..Z outside a leading 0X
    | MissingFold(origin: Codepoint) // a Turkic origin with no C/F entry left in the fold table
    | BucketGone(origin: Codepoint)  // the unfold bucket of its target was already moved
    | NoLocaleSlot(origin: Codepoint) // its target has three code points; the locale table has two slots
}

=== FILE: wrappers.dfy ===
/** Failure-carrying datatypes used across the model. */
module Wrappers {

  /** A value that may be absent. */
  datatype Option<+T> = None | Some(value: T)

  /** Either a computed value or the error that aborted the computation. */
  datatype Result<+R, +E> = Success(value: R) | Failure(error: E)
}
